=== FILE: README.md ===
# tile-masker, modelled in Dafny

tile-masker is a small HTTP service that serves XYZ map tiles as PNG images.
Each request may carry a `mask` query parameter, a comma-separated list of
directives. `SRC` makes every pixel of colour `SRC` fully transparent, and
`SRC-DST` paints such pixels the opaque colour `DST` (both are hex numbers).
Tiles come from one of two backends:

- a remote origin, given by `--base-url`: each tile is fetched over HTTP,
  with the body capped at 10 MiB;
- a local volume, given by `--volume`: at start-up the volume is walked once
  and every `*.png` path goes into an existence filter, so requests for
  unknown tiles are answered without touching the disk.

The model is split into modules that follow the program's structure:

| module | file | what it holds |
|---|---|---|
| `Types` | `types.dfy` | machine integers, `Option`, `Result`, the I/O error kinds |
| `Text` | `text.dfy` | `str::trim` (Unicode white space) and `str::split` on one character |
| `Hex` | `hex.dfy` | `u32::from_str_radix(_, 16)`, plus a hex formatter that serves as its inverse |
| `Color` | `color.dfy` | pixels, the 24-bit pixel key `(r << 16) + (g << 8) + b`, the colour a `DST` number names |
| `MaskQuery` | `mask_query.dfy` | `MaskQuery::clean`: the directive turned into a table from source keys to targets |
| `Masker` | `masker.dfy` | the recolour loop of `mask_image`, `process_local`, `process_remote` and its 10 MiB cap |
| `Snapshot` | `snapshot.dfy` | `visit_dirs` over a directory tree, and the `png` extension filter of the start-up snapshot |
| `Server` | `server.dfy` | the backend check at start-up, start-up itself, `mask_local`, `mask_remote` and the route table |
| `Scenarios` | `scenarios.dfy` | worked examples on concrete directives and pixels |

The external parts become parameters:

- The PNG decoder and encoder are a `Codec` value holding two partial
  functions.
- The file system is a tree value (`Node`) for the walk, and a function from
  paths to `FileAccess` for reads.
- The HTTP GET is a function from URLs to an optional `Body`.
- `Url::join` is a partial function.
- The Bloom filter is a membership function over paths. Lemmas that need
  it assume either that it has no false negatives, or that it is exact.

Some of the code's behaviour is not what one might expect of a mask service;
the model follows the code:

- A directive with more than one `-` (`a-b-c`) is not rejected. Only the
  first two parts are read, so it means the same as `a-b`
  (`MaskQuery.ExtraPartsIgnored`).
- A volume root that does not exist, or is not a directory, is not an
  error. `visit_dirs` returns `Ok` without visiting anything, so the
  service starts with an empty snapshot (`Snapshot.RootNotDirectory`).
  Start-up fails only when some directory it reaches cannot be listed.
- The remote handler has no short cut for an empty mask. A fetched tile is
  always decoded and re-encoded (`Server.RemoteAlwaysReencodes`), unlike
  the local handler, which returns the file's bytes unchanged
  (`Server.EmptyMaskPassesThrough`).
- Masking twice is not the same as masking once in general. A chain such
  as red → green, green → blue recolours again on a second pass
  (`Masker.ChainedEntriesNotIdempotent`). A second pass changes nothing
  exactly when the mask is *stable* (`Masker.PixelIdempotentIff`).
- Source keys of 2^24 or more parse, but no pixel can ever match them
  (`Masker.WideKeysIgnored`). A mask made only of such keys still sends a
  local tile through decode and re-encode, because the handler only tests
  whether the table is empty.
- Only the ends of each comma-separated piece are trimmed, not the parts
  around `-`. White space before or after the `-` (`ff0000 - 00ff00`)
  makes the piece unparsable, so it is dropped rather than read as red →
  green (`MaskQuery.WhitespaceAroundDashDropped`).

## Model

| member | source | states |
|---|---|---|
| Text.IsWhitespace | src/main.rs:58-60 | the Unicode `White_Space` set that `str::trim` strips; pinned by `LeadingWhitespace` and `TrailingWhitespace` |
| Text.LeadingWhitespace | src/main.rs:58-60 | the count is exactly the length of the run of Unicode white space that starts the string |
| Text.TrailingWhitespace | src/main.rs:58-60 | the count is exactly the length of the run of white space that ends the string |
| Text.TrimStart | src/main.rs:58-60 | `trim_start`: drops exactly the leading white-space run that `LeadingWhitespace` measures |
| Text.TrimEnd | src/main.rs:58-60 | `trim_end`: drops exactly the trailing white-space run that `TrailingWhitespace` measures |
| Text.Trim | src/main.rs:58-60 | `str::trim`, both ends; pinned by `TrimStripsWhitespace`, `TrimDecompose`, `TrimPadLeft` and `TrimPadRight` |
| Text.TrimStripsWhitespace | src/main.rs:58-60 | `trim` keeps one contiguous middle part of the string; everything it removes is white space, and what it keeps neither starts nor ends with white space |
| Text.TrimDecompose | src/main.rs:58-60 | every string is white space, then its trim, then white space |
| Text.TrimBlank | src/main.rs:60-61 | a piece made only of white space trims to the empty string, so the blank filter drops it |
| Text.TrimPadLeft | src/main.rs:58-60 | white space added in front of a string does not change its trim |
| Text.TrimPadRight | src/main.rs:58-60 | white space added behind a string does not change its trim |
| Text.Split | src/main.rs:59-63 | `split` always yields at least one piece, and no piece contains the separator |
| Text.JoinSplit | src/main.rs:59 | joining the pieces with the separator gives back the original string |
| Text.SplitJoin | src/main.rs:59 | splitting a join of separator-free pieces gives back exactly those pieces, empty ones included |
| Text.NoSeparator | src/main.rs:63 | a string without the separator splits into itself alone |
| Text.SplitAppend | src/main.rs:59 | splitting `x + sep + y` gives the pieces of `x` followed by the pieces of `y` |
| Text.SplitPadLeft | src/main.rs:59 | text without the separator, put in front, only lengthens the first piece |
| Text.SplitPadRight | src/main.rs:59 | text without the separator, put behind, only lengthens the last piece |
| Hex.HexValue | src/main.rs:64 | the base-16 value of a digit run, most significant digit first; pinned by `HexValueOfFormat`, `HexValueLeadingZero` and `HexValueIgnoresCase` |
| Hex.ParseHexU32 | src/main.rs:64-66 | an accepted string has at least one hex digit and is made only of hex digits, apart from one optional leading `+` (so a lone `+` is rejected); a non-empty run of hex digits in either case is accepted exactly when its value fits in `u32`, and then yields that value |
| Hex.HexChar | src/main.rs:64 | the formatter's digit is a hex digit that the parser reads back as the same value |
| Hex.FormatHex | src/main.rs:64 | the formatted number is a non-empty run of hex digits with no leading zero |
| Hex.HexValueOfFormat | src/main.rs:64 | the digits' value is the formatted number |
| Hex.ParseFormatRoundTrip | src/main.rs:64-66 | parsing a formatted number gives it back when it fits in `u32`, and fails when it overflows |
| Hex.HexValueLeadingZero | src/main.rs:64 | a leading zero digit does not change the value |
| Hex.ParseIgnoresZeroAndPlus | src/main.rs:64-66 | a leading `0` and a single leading `+` are both accepted and do not change the result |
| Hex.ParseRejectsSigns | src/main.rs:64-66 | a leading `-` and a doubled `+` are errors |
| Hex.HexValueIgnoresCase | src/main.rs:64 | upper-case and lower-case digits have the same value |
| Hex.ParseIgnoresCase | src/main.rs:64-66 | the parse is case-insensitive: folding `A`-`F` to `a`-`f` never changes its result, acceptance included |
| Color.ColorKey | src/masker.rs:21 | a pixel's key is below 2^24, so the `u32` shifts never wrap |
| Color.TargetColor | src/main.rs:66-70 | a `DST` colour is always fully opaque |
| Color.ColorKeyInjective | src/masker.rs:21 | two pixels have the same key exactly when they agree on red, green and blue |
| Color.TargetOfColorKey | src/main.rs:67-70 | the `DST` number equal to a pixel's key names that pixel's colour, made opaque |
| Color.ColorKeyOfTarget | src/main.rs:67-69 | the key of the colour a `DST` number names is that number's low 24 bits |
| Color.TargetIgnoresHighBits | src/main.rs:67-69 | `DST` numbers that agree in their low 24 bits name the same colour |
| MaskQuery.ParseToken | src/main.rs:62-74 | a token is accepted exactly when its source part parses and, if it has a second `-` part, that part parses too; an accepted token's source is its first `-` part, read as hex; without a second part the target is transparent, otherwise the target is the colour the second part names |
| MaskQuery.Collect | src/main.rs:75 | no pairs collect into the empty table, and the last pair inserted is always in the table |
| MaskQuery.CollectKeys | src/main.rs:75 | the table's keys are exactly the sources of the pairs |
| MaskQuery.CollectLastWins | src/main.rs:75 | each source maps to the target of the last pair that names it |
| MaskQuery.CollectAppend | src/main.rs:75 | collecting two runs of pairs in order is a map union in which the later run wins |
| MaskQuery.Directive | src/main.rs:55-57 | `unwrap_or_default`: an absent directive is the empty string |
| MaskQuery.Entries | src/main.rs:60-74 | trims each piece, skips blank ones and keeps the pairs of those that parse, in order; pinned by `EntriesAppend`, `EntriesSeeOnlyTrim`, `NoEntriesFromBlank`, `EntriesOfOnePiece` and `EntriesOfPiece` |
| MaskQuery.Clean | src/main.rs:54-76 | the whole of `MaskQuery::clean`, total on every input; pinned by `CleanConcat`, `CleanOneToken`, `BlankDirectiveIsEmpty`, `OuterTrimIrrelevant`, `LastTokenWins` and `WhitespaceAroundDashDropped` |
| MaskQuery.EntriesAppend | src/main.rs:60-74 | pieces are parsed one by one, so the pairs of two runs of pieces are concatenated |
| MaskQuery.EntriesOfOnePiece | src/main.rs:60-74 | a single piece without white space yields no pair when it does not parse, and exactly its pair when it does |
| MaskQuery.EntriesOfPiece | src/main.rs:60-74 | any single piece yields nothing when it trims to empty, and otherwise exactly the parse of its trim (if any), white space inside it included |
| MaskQuery.WhitespaceAroundDashDropped | src/main.rs:62-66 | the parts around `-` are not trimmed, so a valid source followed by white space before the `-`, or a `-` followed by white space, is never a pair |
| MaskQuery.WhitespaceBeforeDash | src/main.rs:62-64 | white space between the source and the `-` leaves it in the first part, which the hex parser rejects |
| MaskQuery.WhitespaceAfterDash | src/main.rs:62-66 | white space after the `-` starts the second part, which the hex parser rejects |
| MaskQuery.EntriesSeeOnlyTrim | src/main.rs:60-74 | only each piece's trimmed form matters |
| MaskQuery.OuterTrimIrrelevant | src/main.rs:58-60 | trimming the whole directive before splitting it changes no pair |
| MaskQuery.CleanConcat | src/main.rs:54-76 | the table of `x,y` is the table of `x` updated by the table of `y` |
| MaskQuery.DropTrailing | src/main.rs:61-74 | a trailing piece that yields nothing can be removed without changing the table |
| MaskQuery.DropUnparsable | src/main.rs:61-74 | a piece that yields nothing can be removed from anywhere in the directive |
| MaskQuery.ParsedHasNoSeparators | src/main.rs:59-64 | a string the hex parser accepts has no white space, `,` or `-` |
| MaskQuery.CleanOneToken | src/main.rs:54-76 | a directive of one token with no white space or comma has an empty table, or the single pair the token parses to |
| MaskQuery.SourceOnlyIsTransparent | src/main.rs:71-73 | `SRC` alone maps that source to fully transparent |
| MaskQuery.SourceTargetIsOpaque | src/main.rs:65-70 | `SRC-DST` maps the source to an opaque colour whose key is `DST`'s low 24 bits |
| MaskQuery.ExtraPartsIgnored | src/main.rs:63-66 | `a-b-c` parses exactly like `a-b`, whatever `c` is |
| MaskQuery.EmptySourceDropped | src/main.rs:64 | a token with an empty source part is dropped |
| MaskQuery.EmptyTargetDropped | src/main.rs:65-66 | a token with a `-` but an empty target part is dropped |
| MaskQuery.OverflowDropped | src/main.rs:64-66 | a token whose source is a hex run too large for `u32` is dropped, whatever follows it; a token whose source parses and whose target is such a run is dropped too |
| MaskQuery.SourceOverflowDropped | src/main.rs:64 | a source too large for `u32` drops the token, with or without a target |
| MaskQuery.TargetOverflowDropped | src/main.rs:66 | a valid source followed by a target too large for `u32` drops the token |
| MaskQuery.TwoParts | src/main.rs:63 | a token with exactly one `-` splits into the part before it and the part after it |
| MaskQuery.BlankDirectiveIsEmpty | src/main.rs:55-61 | an absent directive, and one made only of white space and commas, give the empty table |
| MaskQuery.NoEntriesFromBlank | src/main.rs:60-61 | blank pieces yield no pairs |
| MaskQuery.LastTokenWins | src/main.rs:75 | a trailing `SRC-DST` decides `SRC`'s target, and every other source keeps the target the earlier pieces gave it |
| Masker.RecolorPixel | src/masker.rs:21-27 | one iteration of the loop: a hit takes the entry's four channels, a miss keeps the pixel; pinned by `AlphaIgnored` and `PixelIdempotentIff` |
| Masker.Recolor | src/masker.rs:19-28 | the pass as a function of the pixel sequence; the loop `MaskPixels` computes exactly it, and `RecolorConcat` and `WideKeysIgnored` describe it |
| Masker.RecolorRaster | src/masker.rs:19-28 | masking keeps the image's dimensions and pixel count, and each output pixel is the recolouring of the input pixel at the same position |
| Masker.MaskPixels | src/masker.rs:19-28 | after the loop, a pixel whose key is in the table holds that entry's four channels; every other pixel keeps its bytes |
| Masker.RecolorConcat | src/masker.rs:19-28 | each pixel is treated on its own, so masking distributes over concatenation |
| Masker.AlphaIgnored | src/masker.rs:21-27 | pixels that differ only in alpha get the same entry |
| Masker.Reachable | src/masker.rs:21-22 | the reachable part of a table holds exactly the table's entries with keys below 2^24, and nothing else |
| Masker.WideKeysIgnored | src/masker.rs:21-22 | entries with keys of 2^24 or more never affect any pixel |
| Masker.UnreachableMaskIsIdentity | src/masker.rs:19-28 | a table with no reachable entry leaves every pixel as it was |
| Masker.PixelIdempotentIff | src/masker.rs:19-28 | a second pass changes no pixel exactly when the table is stable |
| Masker.RecolorIdempotent | src/masker.rs:19-28 | with a stable table, masking an image twice is masking it once |
| Masker.ChainedEntriesNotIdempotent | src/masker.rs:19-28 | with red → green and green → blue, a second pass turns a red pixel blue |
| Masker.MaskImage | src/masker.rs:29-36 | the result is the encoding of the recoloured raster, and an encoder failure is `InvalidData` |
| Masker.ProcessLocal | src/masker.rs:74-83 | a file that opens and decodes is answered by masking and re-encoding its raster; an open failure keeps its error kind; every later failure is `InvalidData`; any success is the re-encoded, recoloured decoding of the file |
| Masker.ReadCapped | src/masker.rs:58-62 | the read keeps at most the first 10 MiB of the body; an I/O error fails the read only when it comes before the cap |
| Masker.ProcessRemote | src/masker.rs:47-70 | a body that is read within the cap and decodes is answered by masking and re-encoding its raster; a failed request is `NotFound`; a body read error keeps its kind; a decode or encode failure is `InvalidData`; any success comes from the capped body |
| Masker.LocalOutputDecodesToRecolored | src/masker.rs:74-83 | with a lossless codec, the output decodes to the recoloured stored raster; with a stable mask, processing the output again decodes to that same raster |
| Snapshot.Walk | src/main.rs:131-147 | `visit_dirs`; pinned against the independent `LeafAt` and `Blocked` descriptions by `WalkVisits`, `WalkFailsIff` and `WalkErrorReported` |
| Snapshot.WalkEntries | src/main.rs:136-144 | the loop over one listing: recurse into directories, report everything else, stop at the first error; pinned by `WalkEntriesVisits`, `WalkEntriesFailsIff` and `WalkEntriesErrorReported` |
| Snapshot.LastDot | src/main.rs:167 | finds the position of the last `.` in a name, or reports that there is none |
| Snapshot.Extension | src/main.rs:167 | `Path::extension`: the text after the last `.`, none for `..` or a name whose only `.` leads; pinned by `PngExtensionIff` |
| Snapshot.WalkFailsIff | src/main.rs:131-147 | the walk fails exactly when some directory it reaches cannot be listed |
| Snapshot.WalkErrorReported | src/main.rs:136-140 | the walk's error is passed up unchanged: it is the listing error of some directory the walk reaches |
| Snapshot.WalkEntriesErrorReported | src/main.rs:136-140 | the same for one listing: the error comes from one of its entries |
| Snapshot.WalkVisits | src/main.rs:131-147 | the walk reports exactly the paths of the non-directory entries below the starting directory |
| Snapshot.BuildIndex | src/main.rs:163-173 | the start-up snapshot, the `png` paths the walk reports; pinned by `BuildIndexExact` and `RootNotDirectory` |
| Snapshot.BuildIndexExact | src/main.rs:163-173 | start-up fails exactly when a reachable directory cannot be listed; otherwise the snapshot holds exactly the non-directory entries below the root whose extension is `png` |
| Snapshot.RootNotDirectory | src/main.rs:135 | a root that is missing or not a directory gives an empty snapshot and no error |
| Snapshot.PngExtensionIff | src/main.rs:166-169 | the extension is `png` exactly when the name is a non-empty stem followed by `.png`, compared case-sensitively |
| Server.SelectBackend | src/main.rs:157-161 | start-up proceeds exactly when one of `--base-url` and `--volume` is given; neither or both stop it with the source's message |
| Server.SelectBackendRoundTrip | src/main.rs:157-161 | the backend check accepts each backend's flags and returns the backend those flags name |
| Server.Startup | src/main.rs:157-173 | start-up fails exactly when the backend check fails, with that check's message, or when the volume walk fails, with the walk's error kind; a running service is remote only when just the base URL was given, and local only when just the volume was given; a local service holds that volume's snapshot |
| Server.StartupFailureKind | src/main.rs:163-172 | a failed local start-up is a walk failure whose kind is the listing error of a directory inside the volume |
| Server.ReadFile | src/main.rs:118 | `fs::read` returns the file's bytes, or the error with its own kind |
| Server.TileFile | src/main.rs:107 | the tile's file: the volume followed by the `/`-separated pieces of the tile path with `.png` appended; pinned by `TileFileName` and `TileFileShape` |
| Server.MaskLocal | src/main.rs:107-111 | the handler answers the plain-text `file not found` 404 exactly when the filter does not know the tile's path |
| Server.LocalAnswer | src/main.rs:113-121 | a path the filter knows never gets the filter's 404 |
| Server.MaskRemote | src/main.rs:85-93 | a tile path that joins to the base URL is answered by `process_remote` on the joined URL, with the parsed mask; one that cannot be joined is answered with a 404; the plain-text `file not found` is never sent |
| Server.RemoteAnswer | src/main.rs:89-93 | the answer after the join is `process_remote`'s result, never one of the two 404s: a failed request is `NotFound`, a body read error keeps its kind, an undecodable body is `InvalidData`, and a decodable one is served as the encoding of its recoloured raster (`InvalidData` when encoding fails) |
| Server.Serve | src/main.rs:184-193 | the local route hands a path the filter knows to `LocalAnswer` with the parsed mask and answers the filter's 404 for any other; the remote route hands a joinable path to `RemoteAnswer` on the fetched URL with the parsed mask and answers the join 404 otherwise |
| Server.UnknownTileNeverRead | src/main.rs:108-111 | for a path the filter does not know, the answer is `file not found` whatever the disk, the codec and the mask are |
| Server.KnownTileAnswered | src/main.rs:112-121 | a path the filter knows is answered from the file, with the parsed mask |
| Server.EmptyMaskPassesThrough | src/main.rs:115-119 | with an empty table, the answer is the file's bytes unchanged (or the read error), whatever the codec |
| Server.NonEmptyMaskRecolors | src/main.rs:115-116 | with a non-empty table, a decodable tile is answered with the encoding of its recoloured raster, or `InvalidData` when encoding fails |
| Server.NonEmptyMaskErrors | src/main.rs:115-116 | with a non-empty table, an open failure keeps its kind, while a read failure and an undecodable file are both `InvalidData` |
| Server.RemoteAlwaysReencodes | src/main.rs:89-93 | even with an empty table, a remote success is the re-encoding of a decoded capped body, never the raw bytes |
| Server.RemoteRequestFailureIsNotFound | src/masker.rs:54-57 | a failed GET is answered as `NotFound` |
| Server.TileFileName | src/main.rs:107 | appending `.png` to the tile path adds no component and extends the last one |
| Server.TileFileShape | src/main.rs:107 | the tile's file lies below the volume; its path under the volume is the tile path's components; it passes the `png` filter whenever the tile's last component is non-empty |
| Server.StoredTileIsFound | src/main.rs:107-111 | with a filter that has no false negatives, a tile stored in the volume never gets `file not found` |
| Server.MissingTileIsNotFound | src/main.rs:107-111 | with an exact filter, a tile absent from the volume always gets `file not found` |
| Scenarios.RedKeyParses | src/main.rs:64 | `ff0000` is red's key |
| Scenarios.UpperCaseKeyParses | src/main.rs:64 | `FF0000` is red's key too |
| Scenarios.RedBecomesTransparent | src/main.rs:54-76 | `mask=ff0000` makes red pixels transparent and leaves blue ones alone |
| Scenarios.RedBecomesGreen | src/main.rs:54-76 | `mask=ff0000-00ff00` paints red pixels of any alpha opaque green, and leaves blue ones alone |
| Scenarios.SeparatorsOnlyIsEmpty | src/main.rs:55-61 | a directive of only commas and blanks is the empty table |

## Left out

- HTTP serving (actix), the Prometheus metrics, the `/health` route, the response headers and the mapping of I/O error kinds to HTTP status codes. These are framework behaviour. The handlers' results are modelled as a `Response` value instead.
- The PNG decoder and encoder, the HTTP client (its timeout and user agent), `Url::join` and the file system. These are library or operating-system calls. They are parameters.
- Running the blocking work on a thread pool (`web::block`). A join failure of that pool is not modelled.
- The Bloom filter's construction, its false-positive rate and the error when `Bloom::new_for_fp_rate` fails. The filter is a membership function. Lemmas about it assume either no false negatives or exactness.
- The `Interrupted` retry inside `read_to_end`. A body is modelled as its bytes followed by an optional final error.
- Path normalisation by `PathBuf::join`: absolute tile paths, `..` components and repeated `/`. A tile file is the volume's components followed by the tile path's `/`-separated pieces.
- Non-UTF-8 file names. Only the extension goes through `to_str`, so an extension that is not valid UTF-8 is rejected while a non-UTF-8 stem with a `png` extension is still indexed. Names here are strings, so neither case arises.
- A directory listing that fails part-way, after some entries (`entry?` in `visit_dirs`). Such an error is modelled as an `Unlistable` entry at that point of the listing, which gives the same walk result: the earlier entries are visited, then the walk fails with that kind.
- Masker.ProcessLocal: a read failure after a successful open is assumed to surface through the decoder as `InvalidData`. The decoder's own error classification is not modelled.
- Server.MaskRemote: the 404 for a join failure is a single `UnjoinableUrl` value. The join error's text is not modelled.

=== FILE: color.dfy ===
/** Pixels and the two numeric encodings the service uses for colours: the
    24-bit lookup key of a pixel (`(r << 16) + (g << 8) + b`, alpha left out)
    and the opaque colour a `SRC-DST` directive's `DST` number stands for. */
module Color {
  import opened Types

  /** One RGBA8 pixel, and also the `(u8, u8, u8, u8)` target of a mask entry. */
  datatype Rgba = Rgba(r: u8, g: u8, b: u8, a: u8)

  /** The target of a directive without `-DST`. */
  const Transparent: Rgba := Rgba(0, 0, 0, 0)

  /** Every pixel key is below 2^24. */
  const KEY_LIMIT: int := 0x100_0000

  /** The pixel's lookup key. The source computes it with `u32` shifts; as
      every channel is below 256 the sum stays below 2^24, so the shifts are
      exact multiplications and nothing wraps. */
  function ColorKey(p: Rgba): (k: u32)
    ensures k as int < KEY_LIMIT
  {
    (p.r as int * 0x1_0000 + p.g as int * 0x100 + p.b as int) as u32
  }

  /** The colour `DST` names in `SRC-DST`: `(DST >> 16) & 0xff`,
      `(DST >> 8) & 0xff` and `DST & 0xff`, fully opaque. */
  function TargetColor(t: u32): (c: Rgba)
    ensures c.a == 255
  {
    Rgba(((t as int / 0x1_0000) % 0x100) as u8,
         ((t as int / 0x100) % 0x100) as u8,
         (t as int % 0x100) as u8,
         255)
  }

  /** Base-256 digits: `hi * 256 + lo` splits back into `hi` and `lo`. */
  lemma ByteDigits(hi: int, lo: int)
    requires 0 <= hi && 0 <= lo < 0x100
    ensures (hi * 0x100 + lo) / 0x100 == hi && (hi * 0x100 + lo) % 0x100 == lo
  {
  }

  /** The key as two base-256 steps. */
  lemma KeyDigits(p: Rgba)
    ensures ColorKey(p) as int % 0x100 == p.b as int
    ensures ColorKey(p) as int / 0x100 == p.r as int * 0x100 + p.g as int
    ensures ColorKey(p) as int / 0x1_0000 == p.r as int
  {
    var rg := p.r as int * 0x100 + p.g as int;
    var k := ColorKey(p) as int;
    assert k == rg * 0x100 + p.b as int;
    ByteDigits(rg, p.b as int);
    ByteDigits(p.r as int, p.g as int);
    assert k / 0x1_0000 == (k / 0x100) / 0x100;
  }

  /** The key is exactly the three colour channels: two pixels share a key
      if and only if they agree on red, green and blue, whatever their alpha. */
  lemma ColorKeyInjective(p: Rgba, q: Rgba)
    ensures ColorKey(p) == ColorKey(q) <==> (p.r == q.r && p.g == q.g && p.b == q.b)
  {
    KeyDigits(p);
    KeyDigits(q);
    if ColorKey(p) == ColorKey(q) {
      ByteDigits(p.r as int, p.g as int);
      ByteDigits(q.r as int, q.g as int);
    }
  }

  /** Decoding a key as a target gives back the pixel's colour, made opaque. */
  lemma TargetOfColorKey(p: Rgba)
    ensures TargetColor(ColorKey(p)) == p.(a := 255)
  {
    KeyDigits(p);
    ByteDigits(p.r as int, p.g as int);
  }

  /** Encoding a target as a key keeps only the low 24 bits of `DST`. */
  lemma ColorKeyOfTarget(t: u32)
    ensures ColorKey(TargetColor(t)) as int == t as int % KEY_LIMIT
  {
    var n := t as int;
    var q, rem := n / 0x1_0000, n % 0x1_0000;
    var hi, top := q % 0x100, q / 0x100;
    var mid, lo := rem / 0x100, rem % 0x100;
    assert n / 0x100 == q * 0x100 + mid;
    assert (n / 0x100) % 0x100 == mid;
    assert n % 0x100 == lo;
    assert n == top * KEY_LIMIT + (hi * 0x1_0000 + rem);
    ModKeyLimit(n, top, hi * 0x1_0000 + rem);
  }

  /** Euclidean division by 2^24 has a unique remainder. */
  lemma ModKeyLimit(n: int, q: int, r: int)
    requires n == q * KEY_LIMIT + r && 0 <= r < KEY_LIMIT
    ensures n % KEY_LIMIT == r
  {
  }

  /** Bits of `DST` above the low 24 have no effect on the target. */
  lemma TargetIgnoresHighBits(t: u32, u: u32)
    requires t as int % KEY_LIMIT == u as int % KEY_LIMIT
    ensures TargetColor(t) == TargetColor(u)
  {
    var c, d := TargetColor(t), TargetColor(u);
    ColorKeyOfTarget(t);
    ColorKeyOfTarget(u);
    ColorKeyInjective(c, d);
  }
}

=== FILE: hex.dfy ===
/** `u32::from_str_radix(s, 16)`: an optional `+`, then at least one hex
    digit of either case, with a value that fits in 32 bits. Leading zeros
    are accepted; a `-` sign, white space, `0x` prefixes or an empty digit
    run are rejected. */
module Hex {
  import opened Types

  /** The characters `char::to_digit(16)` accepts. */
  predicate IsHexDigit(c: char)
  {
    ('0' <= c <= '9') || ('a' <= c <= 'f') || ('A' <= c <= 'F')
  }

  predicate AllHexDigits(s: string)
  {
    forall i :: 0 <= i < |s| ==> IsHexDigit(s[i])
  }

  function DigitValue(c: char): (d: nat)
    requires IsHexDigit(c)
    ensures d < 16
  {
    if '0' <= c <= '9' then (c - '0') as nat
    else if 'a' <= c <= 'f' then (c - 'a') as nat + 10
    else (c - 'A') as nat + 10
  }

  /** The unbounded value of a run of hex digits, most significant first. */
  function HexValue(s: string): nat
    requires AllHexDigits(s)
    decreases |s|
  {
    if |s| == 0 then 0 else HexValue(s[..|s| - 1]) * 16 + DigitValue(s[|s| - 1])
  }

  /** Appending a digit multiplies the value by 16 and adds the digit. */
  lemma HexValueSnoc(s: string, c: char)
    requires AllHexDigits(s) && IsHexDigit(c)
    ensures AllHexDigits(s + [c]) && HexValue(s + [c]) == HexValue(s) * 16 + DigitValue(c)
  {
    assert (s + [c])[..|s|] == s;
  }

  /** The parse: `None` for every input Rust reports as an error. */
  function ParseHexU32(s: string): (r: Option<u32>)
    ensures r.Some? ==> |s| > 0
    ensures r.Some? ==> exists i :: 0 <= i < |s| && IsHexDigit(s[i])
    ensures r.Some? ==> forall i :: 0 <= i < |s| ==> IsHexDigit(s[i]) || (i == 0 && s[i] == '+')
    ensures |s| > 0 && AllHexDigits(s) ==> (r.Some? <==> HexValue(s) <= U32_MAX)
    ensures r.Some? && AllHexDigits(s) ==> r.value as int == HexValue(s)
  {
    if |s| == 0 then None
    else
      var digits := if s[0] == '+' then s[1..] else s;
      if |digits| > 0 && AllHexDigits(digits) && HexValue(digits) <= U32_MAX
      then Some(HexValue(digits) as u32)
      else None
  }

  /** Lower-case digit for a value below 16. */
  function HexChar(d: nat): (c: char)
    requires d < 16
    ensures IsHexDigit(c) && DigitValue(c) == d
  {
    "0123456789abcdef"[d]
  }

  /** The lower-case hex spelling of `n`, without leading zeros: the
      parser's inverse. */
  function FormatHex(n: nat): (s: string)
    ensures |s| >= 1 && AllHexDigits(s)
    ensures |s| > 1 ==> s[0] != '0'
    decreases n
  {
    if n < 16 then [HexChar(n)] else FormatHex(n / 16) + [HexChar(n % 16)]
  }

  /** Formatting then evaluating gives the number back. */
  lemma {:induction false} HexValueOfFormat(n: nat)
    ensures HexValue(FormatHex(n)) == n
    decreases n
  {
    if n >= 16 {
      HexValueOfFormat(n / 16);
      var s := FormatHex(n);
      assert s[..|s| - 1] == FormatHex(n / 16);
    }
  }

  /** Round trip: the parser reads back every formatted value that fits in a
      `u32`, and refuses the formatted values that do not. */
  lemma ParseFormatRoundTrip(n: nat)
    ensures n <= U32_MAX ==> ParseHexU32(FormatHex(n)) == Some(n as u32)
    ensures n > U32_MAX ==> ParseHexU32(FormatHex(n)) == None
  {
    HexValueOfFormat(n);
    assert FormatHex(n)[0] != '+';
  }

  /** A leading `0` does not change a digit run's value. */
  lemma {:induction false} HexValueLeadingZero(s: string)
    requires AllHexDigits(s)
    ensures AllHexDigits("0" + s) && HexValue("0" + s) == HexValue(s)
    decreases |s|
  {
    var z := "0" + s;
    if |s| > 0 {
      assert z[..|z| - 1] == "0" + s[..|s| - 1];
      HexValueLeadingZero(s[..|s| - 1]);
    }
  }

  /** Leading zeros and a single `+` are accepted: they never change the
      result of the parse. */
  lemma ParseIgnoresZeroAndPlus(s: string)
    requires |s| > 0 && s[0] != '+'
    ensures ParseHexU32("0" + s) == ParseHexU32(s)
    ensures ParseHexU32("+" + s) == ParseHexU32(s)
  {
    assert ("+" + s)[1..] == s;
    if AllHexDigits(s) {
      HexValueLeadingZero(s);
    } else {
      var i :| 0 <= i < |s| && !IsHexDigit(s[i]);
      assert ("0" + s)[i + 1] == s[i];
    }
  }

  /** A sign is read only once: `-` is never accepted and neither is a
      second `+`. */
  lemma ParseRejectsSigns(s: string)
    ensures ParseHexU32("-" + s) == None
    ensures ParseHexU32("++" + s) == None
  {
    assert ("-" + s)[0] == '-';
    assert ("++" + s)[1] == '+';
  }

  /** `A`-`F` read as `a`-`f`; every other character is kept. */
  function LowerDigit(c: char): char
  {
    if 'A' <= c <= 'F' then (c as int - 'A' as int + 'a' as int) as char else c
  }

  function LowerAll(s: string): (t: string)
    ensures |t| == |s| && forall i :: 0 <= i < |s| ==> t[i] == LowerDigit(s[i])
  {
    seq(|s|, i requires 0 <= i < |s| => LowerDigit(s[i]))
  }

  /** Case does not change a digit run's value. */
  lemma {:induction false} HexValueIgnoresCase(s: string)
    requires AllHexDigits(s)
    ensures AllHexDigits(LowerAll(s)) && HexValue(LowerAll(s)) == HexValue(s)
    decreases |s|
  {
    if |s| > 0 {
      var init := s[..|s| - 1];
      assert LowerAll(s)[..|s| - 1] == LowerAll(init);
      HexValueIgnoresCase(init);
    }
  }

  /** The parse is case-insensitive: `FF0000`, `Ff0000` and `ff0000` are
      the same number, and a run too large for `u32` is rejected in every
      spelling. */
  lemma ParseIgnoresCase(s: string)
    ensures ParseHexU32(LowerAll(s)) == ParseHexU32(s)
  {
    var t := LowerAll(s);
    if |s| > 0 {
      var d := if s[0] == '+' then s[1..] else s;
      var e := if t[0] == '+' then t[1..] else t;
      assert e == LowerAll(d);
      if AllHexDigits(d) {
        HexValueIgnoresCase(d);
      } else {
        var i :| 0 <= i < |d| && !IsHexDigit(d[i]);
        assert e[i] == d[i];
      }
    }
  }
}

=== FILE: mask_query.dfy ===
/** `MaskQuery::clean` (src/main.rs): the optional `mask` query parameter
    turned into a table from `u32` source colours to RGBA targets.

    The directive is trimmed and cut at every `,`; each piece is trimmed and
    blank pieces are skipped. A piece is cut at every `-`: the first part is
    the source, read as hex; when there is a second part it is the target,
    read as hex, whose low three bytes give an opaque colour; without one
    the target is fully transparent. Parts after the second are never
    looked at. A piece whose source or target does not parse is dropped,
    and the surviving pairs are inserted in order, so a later pair for the
    same source wins. */
module MaskQuery {
  import opened Types
  import opened Text
  import opened Hex
  import opened Color

  /** The parsed directive, a `BTreeMap<u32, (u8, u8, u8, u8)>`. */
  type Mask = map<u32, Rgba>

  /** One `(source, target)` pair produced by a token. */
  type Entry = (u32, Rgba)

  /** The body of the `filter_map` closure, applied to a trimmed, non-blank
      token. */
  function ParseToken(tok: string): (e: Option<Entry>)
    ensures e.Some? <==> ParseHexU32(Split(tok, '-')[0]).Some? &&
                         (|Split(tok, '-')| == 1 || ParseHexU32(Split(tok, '-')[1]).Some?)
    ensures e.Some? ==> ParseHexU32(Split(tok, '-')[0]) == Some(e.value.0)
    ensures e.Some? && |Split(tok, '-')| == 1 ==> e.value.1 == Transparent
    ensures e.Some? && |Split(tok, '-')| > 1 ==>
              exists dst :: ParseHexU32(Split(tok, '-')[1]) == Some(dst) && e.value.1 == TargetColor(dst)
  {
    var parts := Split(tok, '-');
    match ParseHexU32(parts[0])
    case None => None
    case Some(src) =>
      if |parts| == 1 then Some((src, Transparent))
      else
        match ParseHexU32(parts[1])
        case None => None
        case Some(dst) => Some((src, TargetColor(dst)))
  }

  /** Trim every piece, skip the blank ones and keep the pairs of those
      that parse, in order. */
  function Entries(pieces: seq<string>): seq<Entry>
    decreases |pieces|
  {
    if |pieces| == 0 then []
    else
      var tok := Trim(pieces[0]);
      var rest := Entries(pieces[1..]);
      if tok == "" then rest
      else match ParseToken(tok)
        case None => rest
        case Some(e) => [e] + rest
  }

  /** No later pair in `es` has the same source as the pair at `i`. */
  predicate LastFor(es: seq<Entry>, i: int)
    requires 0 <= i < |es|
  {
    forall j :: i < j < |es| ==> es[j].0 != es[i].0
  }

  /** Some pair in `es` has source `k`. */
  predicate Mentions(es: seq<Entry>, k: u32)
  {
    exists i :: 0 <= i < |es| && es[i].0 == k
  }

  /** `collect()` into a `BTreeMap`: pairs are inserted in order, so the
      last pair always holds and nothing comes from no pairs. */
  function Collect(es: seq<Entry>): (m: Mask)
    ensures |es| == 0 ==> m == map[]
    ensures |es| > 0 ==> es[|es| - 1].0 in m && m[es[|es| - 1].0] == es[|es| - 1].1
    decreases |es|
  {
    if |es| == 0 then map[]
    else
      var last := es[|es| - 1];
      Collect(es[..|es| - 1])[last.0 := last.1]
  }

  /** The keys of the collected map are exactly the sources mentioned. */
  lemma {:induction false} CollectKeys(es: seq<Entry>, k: u32)
    ensures k in Collect(es) <==> Mentions(es, k)
    decreases |es|
  {
    if |es| > 0 {
      var init := es[..|es| - 1];
      CollectKeys(init, k);
      if Mentions(init, k) {
        var i :| 0 <= i < |init| && init[i].0 == k;
        assert es[i].0 == k;
      }
      if Mentions(es, k) && k != es[|es| - 1].0 {
        var i :| 0 <= i < |es| && es[i].0 == k;
        assert init[i].0 == k;
      }
    }
  }

  /** Last write wins: each source maps to the target of the last pair that
      mentions it. */
  lemma {:induction false} CollectLastWins(es: seq<Entry>, i: int)
    requires 0 <= i < |es| && LastFor(es, i)
    ensures es[i].0 in Collect(es) && Collect(es)[es[i].0] == es[i].1
    decreases |es|
  {
    if i < |es| - 1 {
      var init := es[..|es| - 1];
      assert init[i] == es[i];
      assert LastFor(init, i);
      CollectLastWins(init, i);
    }
  }

  /** `unwrap_or_default`: an absent directive is the empty string. */
  function Directive(mask: Option<string>): string
  {
    match mask
    case None => ""
    case Some(s) => s
  }

  /** `MaskQuery::clean`. It is total: a malformed directive never fails,
      it only yields fewer entries. */
  function Clean(mask: Option<string>): Mask
  {
    Collect(Entries(Split(Trim(Directive(mask)), ',')))
  }

  // ---------------------------------------------------------------------
  // Structure of the parse

  /** Inserting two runs of pairs one after the other is a map union in
      which the second run wins. */
  lemma {:induction false} CollectAppend(a: seq<Entry>, b: seq<Entry>)
    ensures Collect(a + b) == Collect(a) + Collect(b)
    decreases |b|
  {
    if |b| == 0 {
      assert a + b == a;
      assert Collect(a) + map[] == Collect(a);
    } else {
      var ab := a + b;
      var b', e := b[..|b| - 1], b[|b| - 1];
      assert ab[..|ab| - 1] == a + b';
      assert ab[|ab| - 1] == e;
      CollectAppend(a, b');
      UnionUpdate(Collect(a), Collect(b'), e.0, e.1);
    }
  }

  /** Updating the right operand of a union updates the union. */
  lemma UnionUpdate(x: Mask, y: Mask, k: u32, v: Rgba)
    ensures (x + y)[k := v] == x + y[k := v]
  {
    var l, r := (x + y)[k := v], x + y[k := v];
    assert l.Keys == r.Keys;
    forall j | j in l
      ensures l[j] == r[j]
    {
    }
  }

  lemma {:induction false} EntriesAppend(p: seq<string>, q: seq<string>)
    ensures Entries(p + q) == Entries(p) + Entries(q)
    decreases |p|
  {
    if |p| == 0 {
      assert p + q == q;
    } else {
      assert (p + q)[0] == p[0];
      assert (p + q)[1..] == p[1..] + q;
      EntriesAppend(p[1..], q);
    }
  }

  /** Only the trimmed form of each piece matters. */
  lemma {:induction false} EntriesSeeOnlyTrim(p: seq<string>, q: seq<string>)
    requires |p| == |q|
    requires forall i :: 0 <= i < |p| ==> Trim(p[i]) == Trim(q[i])
    ensures Entries(p) == Entries(q)
    decreases |p|
  {
    if |p| > 0 {
      EntriesSeeOnlyTrim(p[1..], q[1..]);
    }
  }

  /** Trimming the whole directive before splitting it changes nothing:
      the white space it removes would be trimmed off the first and last
      pieces anyway. */
  lemma OuterTrimIrrelevant(s: string)
    ensures Entries(Split(Trim(s), ',')) == Entries(Split(s, ','))
  {
    var t := Trim(s);
    var w1, w2 := TrimDecompose(s);
    PaddedPieces(w1, t, w2);
    EntriesSeeOnlyTrim(Split(s, ','), Split(t, ','));
  }

  /** White space around a directive only pads its first and last pieces. */
  lemma PaddedPieces(w1: string, t: string, w2: string)
    requires AllWhitespace(w1) && AllWhitespace(w2)
    ensures |Split(w1 + (t + w2), ',')| == |Split(t, ',')|
    ensures forall i :: 0 <= i < |Split(t, ',')| ==>
              Trim(Split(w1 + (t + w2), ',')[i]) == Trim(Split(t, ',')[i])
  {
    assert !IsWhitespace(',');
    assert ',' !in w1 && ',' !in w2;
    var p := Split(t, ',');
    SplitPadRight(t, w2, ',');
    SplitPadLeft(w1, t + w2, ',');
    var pr := Split(t + w2, ',');
    var ps := Split(w1 + (t + w2), ',');
    PadBothEnds(w1, p, w2, pr, ps);
    PaddedPieceTrims(w1, p, w2, ps);
  }

  /** Padding the last piece, then the first, as positions. */
  lemma PadBothEnds(w1: string, p: seq<string>, w2: string, pr: seq<string>, ps: seq<string>)
    requires |p| >= 1
    requires pr == p[..|p| - 1] + [p[|p| - 1] + w2]
    requires ps == [w1 + pr[0]] + pr[1..]
    ensures |ps| == |p|
    ensures |p| == 1 ==> ps[0] == w1 + (p[0] + w2)
    ensures |p| > 1 ==> ps[0] == w1 + p[0] && ps[|p| - 1] == p[|p| - 1] + w2
    ensures forall i :: 0 < i < |p| - 1 ==> ps[i] == p[i]
  {
  }

  /** One piece of the padded split has the trim of the unpadded one. */
  lemma PaddedPieceTrimsAt(w1: string, p: seq<string>, w2: string, ps: seq<string>, i: nat)
    requires AllWhitespace(w1) && AllWhitespace(w2)
    requires i < |p| && |ps| == |p|
    requires |p| == 1 ==> ps[0] == w1 + (p[0] + w2)
    requires |p| > 1 ==> ps[0] == w1 + p[0] && ps[|p| - 1] == p[|p| - 1] + w2
    requires 0 < i < |p| - 1 ==> ps[i] == p[i]
    ensures Trim(ps[i]) == Trim(p[i])
  {
    if i == 0 && |p| == 1 {
      TrimPadLeft(w1, p[0] + w2);
      TrimPadRight(p[0], w2);
    } else if i == 0 {
      TrimPadLeft(w1, p[0]);
    } else if i == |p| - 1 {
      TrimPadRight(p[i], w2);
    }
  }

  /** The piece-wise form: the first piece gains `w1` in front, the last
      gains `w2` behind, and neither changes any trim. */
  lemma PaddedPieceTrims(w1: string, p: seq<string>, w2: string, ps: seq<string>)
    requires AllWhitespace(w1) && AllWhitespace(w2)
    requires |p| >= 1 && |ps| == |p|
    requires |p| == 1 ==> ps[0] == w1 + (p[0] + w2)
    requires |p| > 1 ==> ps[0] == w1 + p[0] && ps[|p| - 1] == p[|p| - 1] + w2
    requires forall i :: 0 < i < |p| - 1 ==> ps[i] == p[i]
    ensures forall i :: 0 <= i < |p| ==> Trim(ps[i]) == Trim(p[i])
  {
    forall i | 0 <= i < |p|
      ensures Trim(ps[i]) == Trim(p[i])
    {
      PaddedPieceTrimsAt(w1, p, w2, ps, i);
    }
  }

  /** The main structural fact: a directive `x,y` parses to the union of
      what `x` and `y` parse to, with `y`'s entries winning. Each token is
      read independently of the others, so a token that is blank or fails
      to parse leaves the other tokens' entries as they are. */
  lemma CleanConcat(x: string, y: string)
    ensures Clean(Some(x + "," + y)) == Clean(Some(x)) + Clean(Some(y))
  {
    OuterTrimIrrelevant(x + "," + y);
    OuterTrimIrrelevant(x);
    OuterTrimIrrelevant(y);
    SplitAppend(x, y, ',');
    EntriesAppend(Split(x, ','), Split(y, ','));
    CollectAppend(Entries(Split(x, ',')), Entries(Split(y, ',')));
  }

  /** A trailing piece that contributes nothing (blank, or failing to
      parse) can be removed without changing the result. */
  lemma DropTrailing(x: string, bad: string)
    requires Clean(Some(bad)) == map[]
    ensures Clean(Some(x + "," + bad)) == Clean(Some(x))
  {
    CleanConcat(x, bad);
    UnionEmpty(Clean(Some(x)));
  }

  lemma UnionEmpty(m: Mask)
    ensures m + map[] == m
  {
  }

  /** Such a piece can be removed from anywhere in the directive. */
  lemma DropUnparsable(x: string, bad: string, y: string)
    requires Clean(Some(bad)) == map[]
    ensures Clean(Some(x + "," + bad + "," + y)) == Clean(Some(x + "," + y))
  {
    DropTrailing(x, bad);
    CleanConcat(x + "," + bad, y);
    CleanConcat(x, y);
  }

  // ---------------------------------------------------------------------
  // Single tokens

  /** A string the hex parser accepts has no white space, `,` or `-`. */
  lemma ParsedHasNoSeparators(s: string)
    requires ParseHexU32(s).Some?
    ensures forall i :: 0 <= i < |s| ==> !IsWhitespace(s[i]) && s[i] != ',' && s[i] != '-'
  {
  }

  /** A string without white space is its own trim. */
  lemma TrimNoWhitespace(s: string)
    requires forall i :: 0 <= i < |s| ==> !IsWhitespace(s[i])
    ensures Trim(s) == s
  {
    if |s| > 0 {
      assert !IsWhitespace(s[0]) && LeadingWhitespace(s) == 0;
      assert !IsWhitespace(s[|s| - 1]) && TrailingWhitespace(s) == 0;
    }
  }

  /** The entries of a single piece without white space. */
  lemma EntriesOfOnePiece(tok: string)
    requires |tok| > 0
    requires forall i :: 0 <= i < |tok| ==> !IsWhitespace(tok[i])
    ensures ParseToken(tok).None? ==> Entries([tok]) == []
    ensures ParseToken(tok).Some? ==> Entries([tok]) == [ParseToken(tok).value]
  {
    TrimNoWhitespace(tok);
    var ps := [tok];
    assert ps[0] == tok && ps[1..] == [];
    assert Entries(ps[1..]) == [];
  }

  /** The entries of any one piece: nothing when it trims to empty,
      otherwise the parse of its trim, if there is one. Only the ends are
      trimmed, so white space inside the piece reaches the parser. */
  lemma EntriesOfPiece(p: string)
    ensures Entries([p]) == if Trim(p) == "" then [] else
              match ParseToken(Trim(p)) case None => [] case Some(e) => [e]
  {
    assert [p][1..] == [];
  }

  /** The parts around `-` are not trimmed: white space just before or
      just after the `-` makes the token unparsable, so `ff0000 - 00ff00`
      adds nothing to the table. */
  lemma WhitespaceAroundDashDropped(src: string, c: char, rest: string)
    requires ParseHexU32(src).Some?
    requires IsWhitespace(c)
    ensures ParseToken(src + [c] + "-" + rest) == None
    ensures ParseToken(src + "-" + [c] + rest) == None
  {
    WhitespaceBeforeDash(src, c, rest);
    WhitespaceAfterDash(src, c, rest);
  }

  lemma WhitespaceBeforeDash(src: string, c: char, rest: string)
    requires ParseHexU32(src).Some?
    requires IsWhitespace(c)
    ensures ParseToken(src + [c] + "-" + rest) == None
  {
    ParsedHasNoSeparators(src);
    var left := src + [c];
    assert '-' !in left by {
      forall i | 0 <= i < |left| ensures left[i] != '-' {
        if i < |src| { assert left[i] == src[i]; }
      }
    }
    NoSeparator(left, '-');
    SplitAppend(left, rest, '-');
    assert src + [c] + "-" + rest == left + ['-'] + rest;
    assert !IsHexDigit(left[|left| - 1]);
    assert ParseHexU32(left) == None;
  }

  lemma WhitespaceAfterDash(src: string, c: char, rest: string)
    requires ParseHexU32(src).Some?
    requires IsWhitespace(c)
    ensures ParseToken(src + "-" + [c] + rest) == None
  {
    ParsedHasNoSeparators(src);
    NoSeparator(src, '-');
    SplitPadLeft([c], rest, '-');
    SplitAppend(src, [c] + rest, '-');
    assert src + "-" + [c] + rest == src + ['-'] + ([c] + rest);
    var right := [c] + Split(rest, '-')[0];
    assert Split(src + "-" + [c] + rest, '-')[1] == right;
    assert !IsHexDigit(right[0]) && right[0] != '+';
    assert ParseHexU32(right) == None;
  }

  /** Collecting one pair. */
  lemma CollectOne(e: Entry)
    ensures Collect([e]) == map[e.0 := e.1]
  {
    assert [e][..0] == [];
  }

  /** A directive made of one token, with no separators or white space. */
  lemma CleanOneToken(tok: string)
    requires |tok| > 0
    requires forall i :: 0 <= i < |tok| ==> !IsWhitespace(tok[i]) && tok[i] != ','
    ensures Clean(Some(tok)) == match ParseToken(tok) case None => map[] case Some(e) => map[e.0 := e.1]
  {
    TrimNoWhitespace(tok);
    NoSeparator(tok, ',');
    assert Split(Trim(Directive(Some(tok))), ',') == [tok];
    EntriesOfOnePiece(tok);
    assert Clean(Some(tok)) == Collect(Entries([tok]));
    match ParseToken(tok) {
      case None =>
      case Some(e) => CollectOne(e);
    }
  }

  /** `SRC` alone maps the source to fully transparent. */
  lemma SourceOnlyIsTransparent(src: string, v: u32)
    requires ParseHexU32(src) == Some(v)
    ensures Clean(Some(src)) == map[v := Transparent]
  {
    ParsedHasNoSeparators(src);
    NoSeparator(src, '-');
    CleanOneToken(src);
  }

  /** `SRC-DST` maps the source to the opaque colour in `DST`'s low 24 bits;
      the high byte of `DST` is ignored. */
  lemma SourceTargetIsOpaque(src: string, dst: string, v: u32, d: u32)
    requires ParseHexU32(src) == Some(v) && ParseHexU32(dst) == Some(d)
    ensures Clean(Some(src + "-" + dst)) == map[v := TargetColor(d)]
    ensures TargetColor(d).a == 255 && ColorKey(TargetColor(d)) as int == d as int % KEY_LIMIT
  {
    ParsedHasNoSeparators(src);
    ParsedHasNoSeparators(dst);
    var tok := src + "-" + dst;
    SplitAppend(src, dst, '-');
    NoSeparator(src, '-');
    NoSeparator(dst, '-');
    assert Split(tok, '-') == [src, dst];
    forall i | 0 <= i < |tok|
      ensures !IsWhitespace(tok[i]) && tok[i] != ','
    {
      if i < |src| {
        assert tok[i] == src[i];
      } else if i > |src| {
        assert tok[i] == dst[i - |src| - 1];
      }
    }
    CleanOneToken(tok);
    ColorKeyOfTarget(d);
  }

  /** Only the first two `-`-separated parts are read: `a-b-c` parses
      exactly like `a-b`, whatever `c` is. */
  lemma ExtraPartsIgnored(a: string, b: string, c: string)
    requires '-' !in a && '-' !in b
    ensures ParseToken(a + "-" + b + "-" + c) == ParseToken(a + "-" + b)
  {
    SplitAppend(a, b + "-" + c, '-');
    SplitAppend(b, c, '-');
    SplitAppend(a, b, '-');
    NoSeparator(a, '-');
    NoSeparator(b, '-');
    assert a + "-" + b + "-" + c == a + "-" + (b + "-" + c);
  }

  /** A token whose source part is empty is dropped. */
  lemma EmptySourceDropped(rest: string)
    ensures ParseToken("-" + rest) == None
  {
    SplitAppend("", rest, '-');
    assert "" + "-" + rest == "-" + rest;
  }

  /** A token with a `-` but an empty target part is dropped. */
  lemma EmptyTargetDropped(src: string)
    requires '-' !in src
    ensures ParseToken(src + "-") == None
  {
    SplitAppend(src, "", '-');
    NoSeparator(src, '-');
    assert src + "-" + "" == src + "-";
  }

  /** A token whose source overflows `u32` is dropped, whatever follows
      it, and so is one whose target does, whatever its source. */
  lemma OverflowDropped(digits: string, src: string, rest: string)
    requires |digits| > 0 && AllHexDigits(digits) && HexValue(digits) > U32_MAX
    ensures ParseToken(digits) == None
    ensures ParseToken(digits + "-" + rest) == None
    ensures ParseHexU32(src).Some? ==> ParseToken(src + "-" + digits) == None
  {
    SourceOverflowDropped(digits, rest);
    if ParseHexU32(src).Some? {
      TargetOverflowDropped(src, digits);
    }
  }

  lemma SourceOverflowDropped(digits: string, rest: string)
    requires |digits| > 0 && AllHexDigits(digits) && HexValue(digits) > U32_MAX
    ensures ParseToken(digits) == None
    ensures ParseToken(digits + "-" + rest) == None
  {
    assert ParseHexU32(digits) == None;
    assert forall i :: 0 <= i < |digits| ==> digits[i] != '-';
    NoSeparator(digits, '-');
    SplitAppend(digits, rest, '-');
  }

  lemma TargetOverflowDropped(src: string, digits: string)
    requires |digits| > 0 && AllHexDigits(digits) && HexValue(digits) > U32_MAX
    requires ParseHexU32(src).Some?
    ensures ParseToken(src + "-" + digits) == None
  {
    assert ParseHexU32(digits) == None;
    assert forall i :: 0 <= i < |digits| ==> digits[i] != '-';
    ParsedHasNoSeparators(src);
    TwoParts(src, digits);
  }

  /** A token with exactly one `-` has exactly two parts. */
  lemma TwoParts(a: string, b: string)
    requires '-' !in a && '-' !in b
    ensures Split(a + "-" + b, '-') == [a, b]
  {
    NoSeparator(a, '-');
    NoSeparator(b, '-');
    SplitAppend(a, b, '-');
  }

  /** An absent directive and a directive of only white space and commas
      both give the empty table. */
  lemma BlankDirectiveIsEmpty(s: string)
    requires forall i :: 0 <= i < |s| ==> IsWhitespace(s[i]) || s[i] == ','
    ensures Clean(None) == map[]
    ensures Clean(Some(s)) == map[]
  {
    OuterTrimIrrelevant(s);
    BlankPieces(s);
    NoEntriesFromBlank(Split(s, ','));
    OuterTrimIrrelevant("");
  }

  lemma {:induction false} BlankPieces(s: string)
    requires forall i :: 0 <= i < |s| ==> IsWhitespace(s[i]) || s[i] == ','
    ensures forall i :: 0 <= i < |Split(s, ',')| ==> AllWhitespace(Split(s, ',')[i])
    decreases |s|
  {
    if |s| > 0 {
      BlankPieces(s[1..]);
    }
  }

  lemma {:induction false} NoEntriesFromBlank(p: seq<string>)
    requires forall i :: 0 <= i < |p| ==> AllWhitespace(p[i])
    ensures Entries(p) == []
    decreases |p|
  {
    if |p| > 0 {
      TrimBlank(p[0]);
      NoEntriesFromBlank(p[1..]);
    }
  }

  /** Last write wins: whatever came before, a trailing `SRC-DST` decides
      the target of `SRC`, and the other sources keep what the prefix gave. */
  lemma LastTokenWins(x: string, src: string, dst: string, v: u32, d: u32)
    requires ParseHexU32(src) == Some(v) && ParseHexU32(dst) == Some(d)
    ensures var m := Clean(Some(x + "," + (src + "-" + dst)));
            && v in m && m[v] == TargetColor(d)
            && (forall k :: k in Clean(Some(x)) && k != v ==> k in m && m[k] == Clean(Some(x))[k])
  {
    var tok := src + "-" + dst;
    CleanConcat(x, tok);
    SourceTargetIsOpaque(src, dst, v, d);
    var cx := Clean(Some(x));
    assert Clean(Some(x + "," + tok)) == cx + map[v := TargetColor(d)];
  }
}

=== FILE: masker.dfy ===
/** src/masker.rs: the recolour pass of `mask_image`, and the two pipelines
    around it. `process_local` opens a file, decodes it, recolours and
    re-encodes; `process_remote` issues the HTTP request, reads at most
    10 MiB of the body, decodes, recolours and re-encodes. PNG decoding and
    encoding are library calls, so they are parameters (`Codec`) here. */
module Masker {
  import opened Types
  import opened Color
  import opened MaskQuery

  /** A decoded image converted to RGBA8, pixels in row-major order. */
  datatype Raster = Raster(width: nat, height: nat, pixels: seq<Rgba>)

  /** The PNG decoder (`decode().into_rgba8()`) and encoder
      (`PngEncoder` with best compression, no filtering), either of which
      may fail. */
  datatype Codec = Codec(decode: Bytes -> Option<Raster>, encode: Raster -> Option<Bytes>)

  /** One iteration of the pixel loop: look the pixel's key up and, on a
      hit, overwrite all four channels with the entry. */
  function RecolorPixel(p: Rgba, mask: Mask): Rgba
  {
    var k := ColorKey(p);
    if k in mask then mask[k] else p
  }

  /** The whole pass, as a function of the pixel sequence. */
  function Recolor(pixels: seq<Rgba>, mask: Mask): seq<Rgba>
  {
    seq(|pixels|, i requires 0 <= i < |pixels| => RecolorPixel(pixels[i], mask))
  }

  /** The pass applied to an image; the dimensions are not touched. */
  function RecolorRaster(img: Raster, mask: Mask): (out: Raster)
    ensures out.width == img.width && out.height == img.height
    ensures |out.pixels| == |img.pixels|
    ensures forall i :: 0 <= i < |img.pixels| ==> out.pixels[i] == RecolorPixel(img.pixels[i], mask)
  {
    img.(pixels := Recolor(img.pixels, mask))
  }

  /** The loop of `mask_image` (src/masker.rs), updating the pixels in
      place one at a time: a pixel whose key is in the mask takes the
      entry's four channels, any other pixel keeps its bytes. */
  method MaskPixels(pixels: seq<Rgba>, mask: Mask) returns (out: seq<Rgba>)
    ensures |out| == |pixels|
    ensures forall i :: 0 <= i < |pixels| && ColorKey(pixels[i]) in mask ==>
              out[i] == mask[ColorKey(pixels[i])]
    ensures forall i :: 0 <= i < |pixels| && ColorKey(pixels[i]) !in mask ==>
              out[i] == pixels[i]
    ensures out == Recolor(pixels, mask)
  {
    out := pixels;
    var i := 0;
    while i < |out|
      invariant 0 <= i <= |out| == |pixels|
      invariant forall j :: 0 <= j < i ==> out[j] == RecolorPixel(pixels[j], mask)
      invariant forall j :: i <= j < |out| ==> out[j] == pixels[j]
    {
      var key := ColorKey(out[i]);
      if key in mask {
        out := out[i := mask[key]];
      }
      i := i + 1;
    }
  }

  // ---------------------------------------------------------------------
  // Properties of the pass

  /** The pass works pixel by pixel: recolouring two runs of pixels is
      recolouring each run, so an output pixel depends on its own input
      pixel only and a recoloured pixel is never looked up again. */
  lemma RecolorConcat(a: seq<Rgba>, b: seq<Rgba>, mask: Mask)
    ensures Recolor(a + b, mask) == Recolor(a, mask) + Recolor(b, mask)
  {
  }

  /** The lookup ignores alpha: pixels that agree on red, green and blue get
      the same entry, whatever their alpha. */
  lemma AlphaIgnored(p: Rgba, q: Rgba, mask: Mask)
    requires p.r == q.r && p.g == q.g && p.b == q.b
    requires ColorKey(p) in mask
    ensures RecolorPixel(p, mask) == RecolorPixel(q, mask) == mask[ColorKey(p)]
  {
    ColorKeyInjective(p, q);
  }

  /** The entries a pixel can ever hit: those with a key below 2^24. */
  function Reachable(mask: Mask): (m: Mask)
    ensures forall k :: k in m ==> k in mask && k as int < KEY_LIMIT
    ensures forall k :: k in mask && k as int < KEY_LIMIT ==> k in m && m[k] == mask[k]
  {
    map k | k in mask && k as int < KEY_LIMIT :: mask[k]
  }

  /** Entries whose source is 2^24 or more never affect any pixel. */
  lemma WideKeysIgnored(pixels: seq<Rgba>, mask: Mask)
    ensures Recolor(pixels, mask) == Recolor(pixels, Reachable(mask))
  {
  }

  /** A mask with no reachable entry leaves every pixel as it was. */
  lemma UnreachableMaskIsIdentity(pixels: seq<Rgba>, mask: Mask)
    requires Reachable(mask) == map[]
    ensures Recolor(pixels, mask) == pixels
  {
    WideKeysIgnored(pixels, mask);
  }

  /** Re-applying the pass changes nothing exactly when every reachable
      target that is itself a key maps to itself. */
  ghost predicate Stable(mask: Mask)
  {
    forall k :: k in mask && k as int < KEY_LIMIT && ColorKey(mask[k]) in mask ==>
      mask[ColorKey(mask[k])] == mask[k]
  }

  /** Under a stable mask a second pass leaves a pixel as the first left it. */
  lemma StablePixel(mask: Mask, p: Rgba)
    requires Stable(mask)
    ensures RecolorPixel(RecolorPixel(p, mask), mask) == RecolorPixel(p, mask)
  {
    var k := ColorKey(p);
    if k in mask {
      assert k as int < KEY_LIMIT;
    }
  }

  /** Under an unstable mask some pixel changes again on a second pass: the
      pixel whose colour is the offending key. */
  lemma UnstableWitness(mask: Mask)
    requires !Stable(mask)
    ensures exists p :: RecolorPixel(RecolorPixel(p, mask), mask) != RecolorPixel(p, mask)
  {
    var k :| k in mask && k as int < KEY_LIMIT && ColorKey(mask[k]) in mask &&
             mask[ColorKey(mask[k])] != mask[k];
    var p := TargetColor(k);
    ColorKeyOfTarget(k);
    ModKeyLimit(k as int, 0, k as int);
    assert ColorKey(p) == k;
    var q := mask[k];
    assert RecolorPixel(p, mask) == q;
    assert RecolorPixel(q, mask) == mask[ColorKey(q)];
  }

  /** A second pass with the same mask is a no-op if and only if the mask
      is stable; a pixel whose new colour is itself a key would otherwise
      be recoloured again. */
  lemma PixelIdempotentIff(mask: Mask)
    ensures Stable(mask) <==>
            forall p :: RecolorPixel(RecolorPixel(p, mask), mask) == RecolorPixel(p, mask)
  {
    if Stable(mask) {
      forall p
        ensures RecolorPixel(RecolorPixel(p, mask), mask) == RecolorPixel(p, mask)
      {
        StablePixel(mask, p);
      }
    } else {
      UnstableWitness(mask);
    }
  }

  /** With a stable mask the pass is idempotent on whole images. */
  lemma RecolorIdempotent(pixels: seq<Rgba>, mask: Mask)
    requires Stable(mask)
    ensures Recolor(Recolor(pixels, mask), mask) == Recolor(pixels, mask)
  {
    PixelIdempotentIff(mask);
  }

  /** The pass is not idempotent in general: with red -> green and
      green -> blue, one pass turns a red pixel green and a second pass
      turns it blue. */
  lemma ChainedEntriesNotIdempotent()
    ensures var mask := map[0xff0000 := Rgba(0, 255, 0, 255), 0x00ff00 := Rgba(0, 0, 255, 255)];
            var red := [Rgba(255, 0, 0, 255)];
            && Recolor(red, mask) == [Rgba(0, 255, 0, 255)]
            && Recolor(Recolor(red, mask), mask) == [Rgba(0, 0, 255, 255)]
  {
  }

  // ---------------------------------------------------------------------
  // The pipelines around the pass

  /** The end of `mask_image`: recolour, then encode; an encoder failure
      becomes `InvalidData`. */
  function MaskImage(img: Raster, mask: Mask, codec: Codec): (r: Result<Bytes, ErrorKind>)
    ensures r.Failure? <==> codec.encode(RecolorRaster(img, mask)).None?
    ensures r.Failure? ==> r.error == InvalidData
    ensures r.Success? ==> codec.encode(RecolorRaster(img, mask)) == Some(r.value)
  {
    match codec.encode(RecolorRaster(img, mask))
    case None => Failure(InvalidData)
    case Some(bytes) => Success(bytes)
  }

  /** What opening and reading a local file yields: the open itself fails,
      or it succeeds and reading the contents fails later, or the contents. */
  datatype FileAccess =
    | OpenFails(kind: ErrorKind)
    | ReadFails(kind: ErrorKind)
    | Contents(bytes: Bytes)

  /** `process_local`. A failure of `ImageReader::open` keeps its own kind;
      anything that goes wrong once the file is open, reading included,
      surfaces through the decoder and becomes `InvalidData`. */
  function ProcessLocal(file: FileAccess, mask: Mask, codec: Codec): (r: Result<Bytes, ErrorKind>)
    ensures file.OpenFails? ==> r == Failure(file.kind)
    ensures r.Failure? && !file.OpenFails? ==> r.error == InvalidData
    ensures forall img :: file.Contents? && codec.decode(file.bytes) == Some(img) ==>
              r == MaskImage(img, mask, codec)
    ensures r.Success? ==>
              && file.Contents?
              && exists img :: codec.decode(file.bytes) == Some(img) &&
                               codec.encode(RecolorRaster(img, mask)) == Some(r.value)
  {
    match file
    case OpenFails(k) => Failure(k)
    case ReadFails(_) => Failure(InvalidData)
    case Contents(bytes) =>
      match codec.decode(bytes)
      case None => Failure(InvalidData)
      case Some(img) => MaskImage(img, mask, codec)
  }

  /** `MAX_REMOTE_FILE_SIZE`: 10 MiB. */
  const MAX_REMOTE_FILE_SIZE: nat := 10_485_760

  /** The body of an HTTP response as a stream: the bytes it delivers, then
      either a clean end or an I/O error. */
  datatype Body = Body(data: Bytes, failure: Option<ErrorKind>)

  /** `take(MAX_REMOTE_FILE_SIZE).read_to_end(..)`: at most the first
      10 MiB. Once the cap is reached nothing more is read, so an error
      past the cap is never seen; an error before it is returned as is. */
  function ReadCapped(body: Body): (r: Result<Bytes, ErrorKind>)
    ensures r.Success? ==> |r.value| == Min(|body.data|, MAX_REMOTE_FILE_SIZE)
    ensures r.Success? ==> r.value == body.data[..|r.value|]
    ensures r.Failure? <==> body.failure.Some? && |body.data| < MAX_REMOTE_FILE_SIZE
    ensures r.Failure? ==> r.error == body.failure.value
  {
    if |body.data| >= MAX_REMOTE_FILE_SIZE then Success(body.data[..MAX_REMOTE_FILE_SIZE])
    else match body.failure
      case Some(k) => Failure(k)
      case None => Success(body.data)
  }

  /** `process_remote`, given the outcome of the GET request (`None` when
      the request fails: no connection, a timeout, an error status).
      There is no short cut for an empty mask: a fetched tile is always
      decoded and re-encoded. */
  function ProcessRemote(response: Option<Body>, mask: Mask, codec: Codec): (r: Result<Bytes, ErrorKind>)
    ensures response.None? ==> r == Failure(NotFound)
    ensures response.Some? && ReadCapped(response.value).Failure? ==>
              r == Failure(response.value.failure.value)
    ensures response.Some? && ReadCapped(response.value).Success? && r.Failure? ==>
              r.error == InvalidData
    ensures forall img :: response.Some? && ReadCapped(response.value).Success? &&
                          codec.decode(ReadCapped(response.value).value) == Some(img) ==>
              r == MaskImage(img, mask, codec)
    ensures r.Success? ==>
              && response.Some?
              && ReadCapped(response.value).Success?
              && exists img :: codec.decode(ReadCapped(response.value).value) == Some(img) &&
                               codec.encode(RecolorRaster(img, mask)) == Some(r.value)
  {
    match response
    case None => Failure(NotFound)
    case Some(body) =>
      match ReadCapped(body)
      case Failure(k) => Failure(k)
      case Success(bytes) =>
        match codec.decode(bytes)
        case None => Failure(InvalidData)
        case Some(img) => MaskImage(img, mask, codec)
  }

  /** The encoder and decoder agree: whatever is encoded decodes back to
      the same raster (PNG is lossless). */
  ghost predicate Lossless(codec: Codec)
  {
    forall img, bytes :: codec.encode(img) == Some(bytes) ==> codec.decode(bytes) == Some(img)
  }

  /** With a lossless codec, what a client decodes from a processed local
      tile is exactly the recoloured raster of the stored one, and running
      the result through the pipeline again with a stable mask yields the
      same raster. */
  lemma LocalOutputDecodesToRecolored(file: FileAccess, mask: Mask, codec: Codec, img: Raster)
    requires Lossless(codec)
    requires file.Contents? && codec.decode(file.bytes) == Some(img)
    requires ProcessLocal(file, mask, codec).Success?
    ensures codec.decode(ProcessLocal(file, mask, codec).value) == Some(RecolorRaster(img, mask))
    ensures Stable(mask) ==>
              var again := ProcessLocal(Contents(ProcessLocal(file, mask, codec).value), mask, codec);
              again.Success? ==> codec.decode(again.value) == Some(RecolorRaster(img, mask))
  {
    var out := ProcessLocal(file, mask, codec).value;
    assert codec.encode(RecolorRaster(img, mask)) == Some(out);
    if Stable(mask) {
      var again := ProcessLocal(Contents(out), mask, codec);
      if again.Success? {
        var img2 := RecolorRaster(img, mask);
        assert codec.encode(RecolorRaster(img2, mask)) == Some(again.value);
        RecolorIdempotent(img.pixels, mask);
        assert RecolorRaster(img2, mask) == img2;
      }
    }
  }
}

=== FILE: scenarios.dfy ===
/** Worked examples of the service's behaviour on concrete directives and
    pixels, each derived from the general lemmas. */
module Scenarios {
  import opened Types
  import opened Text
  import opened Hex
  import opened Color
  import opened MaskQuery
  import opened Masker

  const RED: Rgba := Rgba(255, 0, 0, 255)
  const BLUE: Rgba := Rgba(0, 0, 255, 255)
  const GREEN: Rgba := Rgba(0, 255, 0, 255)

  lemma RedKeyParses()
    ensures ParseHexU32("ff0000") == Some(0xff0000)
  {
    var s0: string := [];
    HexValueSnoc(s0, 'f');
    var s1 := s0 + ['f'];
    HexValueSnoc(s1, 'f');
    var s2 := s1 + ['f'];
    HexValueSnoc(s2, '0');
    var s3 := s2 + ['0'];
    HexValueSnoc(s3, '0');
    var s4 := s3 + ['0'];
    HexValueSnoc(s4, '0');
    var s5 := s4 + ['0'];
    HexValueSnoc(s5, '0');
    var s6 := s5 + ['0'];
    assert HexValue(s6) == 0xff0000;
    assert s6 == "ff0000";
  }

  /** Upper-case digits name the same key: `FF0000` is red's key too. */
  lemma UpperCaseKeyParses()
    ensures ParseHexU32("FF0000") == Some(0xff0000)
  {
    ParseIgnoresCase("FF0000");
    assert LowerAll("FF0000") == "ff0000";
    RedKeyParses();
  }

  /** Leading zeros are accepted: `00ff00` is 0xff00. */
  lemma GreenKeyParses()
    ensures ParseHexU32("00ff00") == Some(0xff00)
  {
    var s0: string := [];
    HexValueSnoc(s0, '0');
    var s1 := s0 + ['0'];
    HexValueSnoc(s1, '0');
    var s2 := s1 + ['0'];
    HexValueSnoc(s2, 'f');
    var s3 := s2 + ['f'];
    HexValueSnoc(s3, 'f');
    var s4 := s3 + ['f'];
    HexValueSnoc(s4, '0');
    var s5 := s4 + ['0'];
    HexValueSnoc(s5, '0');
    var s6 := s5 + ['0'];
    assert HexValue(s6) == 0xff00;
    assert s6 == "00ff00";
  }

  /** Recolouring under a one-entry mask, for a pixel that matches and one
      that does not. */
  lemma RecolorOneEntry(mask: Mask, hit: Rgba, miss: Rgba, target: Rgba)
    requires mask == map[ColorKey(hit) := target]
    requires ColorKey(miss) != ColorKey(hit)
    ensures Recolor([hit, miss], mask) == [target, miss]
  {
    assert RecolorPixel(hit, mask) == target;
    assert RecolorPixel(miss, mask) == miss;
  }

  /** `mask=ff0000` is one entry: red becomes fully transparent. */
  lemma RedToTransparentMask()
    ensures Clean(Some("ff0000")) == map[0xff0000 := Transparent]
  {
    RedKeyParses();
    SourceOnlyIsTransparent("ff0000", 0xff0000);
  }

  /** `mask=ff0000` makes red pixels fully transparent and leaves blue ones
      alone. */
  lemma RedBecomesTransparent()
    ensures Recolor([RED, BLUE], Clean(Some("ff0000"))) == [Transparent, BLUE]
  {
    RedToTransparentMask();
    RecolorOneEntry(map[0xff0000 := Transparent], RED, BLUE, Transparent);
  }

  /** `mask=ff0000-00ff00` is one entry: red becomes opaque green. */
  lemma RedToGreenMask()
    ensures Clean(Some("ff0000" + "-" + "00ff00")) == map[0xff0000 := GREEN]
  {
    RedKeyParses();
    GreenKeyParses();
    SourceTargetIsOpaque("ff0000", "00ff00", 0xff0000, 0xff00);
    GreenTarget();
  }

  /** The `DST` number 0x00ff00 names opaque green. */
  lemma GreenTarget()
    ensures TargetColor(0xff00) == GREEN
  {
  }

  /** `mask=ff0000-00ff00` paints red pixels opaque green, whatever their
      alpha was. */
  lemma RedBecomesGreen()
    ensures Recolor([RED.(a := 7), BLUE], Clean(Some("ff0000" + "-" + "00ff00"))) == [GREEN, BLUE]
  {
    RedToGreenMask();
    RecolorOneEntry(map[0xff0000 := GREEN], RED.(a := 7), BLUE, GREEN);
  }

  /** A directive of separators and blanks is no mask at all. */
  lemma SeparatorsOnlyIsEmpty()
    ensures Clean(Some(" , ,\t")) == map[]
  {
    var s := " , ,\t";
    assert forall i :: 0 <= i < |s| ==> IsWhitespace(s[i]) || s[i] == ',';
    BlankDirectiveIsEmpty(s);
  }
}

=== FILE: server.dfy ===
/** The service around the cores (src/main.rs): the start-up check that
    exactly one backend is configured, the start-up snapshot of a local
    volume, and the two request handlers. The network, the file system and
    the PNG codec are parameters; the existence filter is a membership
    function over paths. */
module Server {
  import opened Types
  import opened Text
  import opened MaskQuery
  import opened Masker
  import opened Snapshot

  /** A URL, kept opaque. */
  type Url = string

  // ---------------------------------------------------------------------
  // Start-up

  /** The backend chosen on the command line. */
  datatype Backend = Origin(base: Url) | Volume(root: Path)

  /** Why start-up stops: a usage error, or a failure while walking the
      volume. */
  datatype StartupError = Usage(message: string) | WalkFailed(kind: ErrorKind)

  const NEITHER_GIVEN: string := "One of --base-url or --volume must be provided"
  const BOTH_GIVEN: string := "Only one of --base-url or --volume must be provided"

  /** The two checks at the top of `main`: neither flag, or both, is an error. */
  function SelectBackend(baseUrl: Option<Url>, volume: Option<Path>): (r: Result<Backend, StartupError>)
    ensures r.Success? <==> (baseUrl.Some? <==> volume.None?)
    ensures baseUrl.None? && volume.None? ==> r == Failure(Usage(NEITHER_GIVEN))
    ensures baseUrl.Some? && volume.Some? ==> r == Failure(Usage(BOTH_GIVEN))
  {
    if baseUrl.None? && volume.None? then Failure(Usage(NEITHER_GIVEN))
    else if baseUrl.Some? && volume.Some? then Failure(Usage(BOTH_GIVEN))
    else if baseUrl.Some? then Success(Origin(baseUrl.value))
    else Success(Volume(volume.value))
  }

  /** The command-line flags that select a backend. */
  function Flags(b: Backend): (Option<Url>, Option<Path>)
  {
    match b
    case Origin(u) => (Some(u), None)
    case Volume(v) => (None, Some(v))
  }

  /** The backend check accepts exactly the flag pairs that name one backend, and
      returns that backend. */
  lemma SelectBackendRoundTrip(b: Backend, baseUrl: Option<Url>, volume: Option<Path>)
    ensures SelectBackend(Flags(b).0, Flags(b).1) == Success(b)
    ensures SelectBackend(baseUrl, volume).Success? ==>
              Flags(SelectBackend(baseUrl, volume).value) == (baseUrl, volume)
  {
  }

  /** A running service: a remote origin, or a volume with its snapshot. */
  datatype Service = RemoteService(base: Url) | LocalService(root: Path, snapshot: set<Path>)

  /** Start-up: validate the flags, then in local mode walk the volume
      (`disk` is what the file system holds at the volume path). */
  function Startup(baseUrl: Option<Url>, volume: Option<Path>, disk: Node): (r: Result<Service, StartupError>)
    ensures r.Failure? <==> SelectBackend(baseUrl, volume).Failure? ||
                            (volume.Some? && baseUrl.None? && BuildIndex(volume.value, disk).Failure?)
    ensures SelectBackend(baseUrl, volume).Failure? ==> r == Failure(SelectBackend(baseUrl, volume).error)
    ensures volume.Some? && baseUrl.None? && BuildIndex(volume.value, disk).Failure? ==>
              r == Failure(WalkFailed(BuildIndex(volume.value, disk).error))
    ensures r.Success? ==> SelectBackend(baseUrl, volume).Success?
    ensures r.Success? && r.value.RemoteService? ==> baseUrl == Some(r.value.base) && volume.None?
    ensures r.Success? && r.value.LocalService? ==>
              && volume == Some(r.value.root) && baseUrl.None?
              && BuildIndex(r.value.root, disk) == Success(r.value.snapshot)
  {
    match SelectBackend(baseUrl, volume)
    case Failure(e) => Failure(e)
    case Success(Origin(u)) => Success(RemoteService(u))
    case Success(Volume(v)) =>
      match BuildIndex(v, disk)
      case Failure(k) => Failure(WalkFailed(k))
      case Success(idx) => Success(LocalService(v, idx))
  }

  /** A local start-up that fails does so because of the walk, with the
      listing error of a directory inside the volume. */
  lemma StartupFailureKind(volume: Path, disk: Node)
    requires Startup(None, Some(volume), disk).Failure?
    ensures Startup(None, Some(volume), disk).error.WalkFailed?
    ensures ReportsKind(disk, Startup(None, Some(volume), disk).error.kind)
  {
    WalkErrorReported(volume, disk);
  }

  // ---------------------------------------------------------------------
  // Requests

  /** What a handler answers. */
  datatype Response =
    | Png(body: Bytes)                  // 200, image/png
    | NotFoundText(message: string)     // 404, text/plain, from the local handler
    | UnjoinableUrl                     // 404, when the tile path cannot be joined to the base URL
    | Failed(kind: ErrorKind)           // an I/O error out of the blocking task

  const FILE_NOT_FOUND: string := "file not found"

  /** `std::fs::read`: the contents, or the error with its own kind. */
  function ReadFile(f: FileAccess): (r: Result<Bytes, ErrorKind>)
    ensures r.Success? <==> f.Contents?
    ensures r.Success? ==> r.value == f.bytes
    ensures r.Failure? ==> r.error == f.kind
  {
    match f
    case OpenFails(k) => Failure(k)
    case ReadFails(k) => Failure(k)
    case Contents(b) => Success(b)
  }

  function Respond(r: Result<Bytes, ErrorKind>): Response
  {
    match r
    case Success(b) => Png(b)
    case Failure(k) => Failed(k)
  }

  /** `volume.join(format!("{}.png", path))`, component-wise. */
  function TileFile(volume: Path, tile: string): Path
  {
    volume + Split(tile + ".png", '/')
  }

  /** `mask_local`: a path the filter does not know is answered with a
      plain 404 before the mask is parsed or the disk is touched; anything
      else is answered by `LocalAnswer`. */
  function MaskLocal(volume: Path, contains: Path -> bool, files: Path -> FileAccess,
                     codec: Codec, tile: string, mask: Option<string>): (r: Response)
    ensures r.NotFoundText? <==> !contains(TileFile(volume, tile))
    ensures r.NotFoundText? ==> r.message == FILE_NOT_FOUND
  {
    var path := TileFile(volume, tile);
    if !contains(path) then NotFoundText(FILE_NOT_FOUND)
    else LocalAnswer(files(path), Clean(mask), codec)
  }

  /** The rest of `mask_local`, once the mask is parsed: an empty mask
      serves the stored bytes as they are, any other goes through
      `process_local`. */
  function LocalAnswer(file: FileAccess, m: Mask, codec: Codec): (r: Response)
    ensures !r.NotFoundText? && !r.UnjoinableUrl?
  {
    if m != map[] then Respond(ProcessLocal(file, m, codec))
    else Respond(ReadFile(file))
  }

  /** `mask_remote`: join the tile path to the base URL, fetch, and hand
      the response to `RemoteAnswer`. */
  function MaskRemote(base: Url, join: (Url, string) -> Option<Url>, fetch: Url -> Option<Body>,
                      codec: Codec, tile: string, mask: Option<string>): (r: Response)
    ensures join(base, tile + ".png").None? ==> r == UnjoinableUrl
    ensures join(base, tile + ".png").Some? ==>
              r == RemoteAnswer(fetch(join(base, tile + ".png").value), Clean(mask), codec)
    ensures !r.NotFoundText?
  {
    match join(base, tile + ".png")
    case None => UnjoinableUrl
    case Some(url) => RemoteAnswer(fetch(url), Clean(mask), codec)
  }

  /** The rest of `mask_remote`: always `process_remote`, even for an
      empty mask. A failed request is `NotFound`, a body read error keeps
      its kind, an undecodable body is `InvalidData`, and a decodable one
      is served as the encoding of its recoloured raster. */
  function RemoteAnswer(response: Option<Body>, m: Mask, codec: Codec): (r: Response)
    ensures !r.NotFoundText? && !r.UnjoinableUrl?
    ensures response.None? ==> r == Failed(NotFound)
    ensures response.Some? && ReadCapped(response.value).Failure? ==>
              r == Failed(response.value.failure.value)
    ensures response.Some? && ReadCapped(response.value).Success? &&
            codec.decode(ReadCapped(response.value).value).None? ==>
              r == Failed(InvalidData)
    ensures forall img :: response.Some? && ReadCapped(response.value).Success? &&
                          codec.decode(ReadCapped(response.value).value) == Some(img) ==>
              r == match codec.encode(RecolorRaster(img, m))
                   case Some(b) => Png(b)
                   case None => Failed(InvalidData)
  {
    Respond(ProcessRemote(response, m, codec))
  }

  /** The route table: one handler per backend. */
  function Serve(svc: Service, contains: Path -> bool, files: Path -> FileAccess,
                 join: (Url, string) -> Option<Url>, fetch: Url -> Option<Body>,
                 codec: Codec, tile: string, mask: Option<string>): (r: Response)
    ensures svc.LocalService? ==> (r.NotFoundText? <==> !contains(TileFile(svc.root, tile)))
    ensures svc.LocalService? ==> !r.UnjoinableUrl?
    ensures svc.RemoteService? ==> !r.NotFoundText?
    ensures svc.RemoteService? ==> (r.UnjoinableUrl? <==> join(svc.base, tile + ".png").None?)
    ensures svc.LocalService? && contains(TileFile(svc.root, tile)) ==>
              r == LocalAnswer(files(TileFile(svc.root, tile)), Clean(mask), codec)
    ensures svc.RemoteService? && join(svc.base, tile + ".png").Some? ==>
              r == RemoteAnswer(fetch(join(svc.base, tile + ".png").value), Clean(mask), codec)
  {
    match svc
    case RemoteService(base) => MaskRemote(base, join, fetch, codec, tile, mask)
    case LocalService(root, _) => MaskLocal(root, contains, files, codec, tile, mask)
  }

  // ---------------------------------------------------------------------
  // Properties of the handlers

  /** A tile the filter does not know gets the plain 404 whatever the mask,
      and the answer does not depend on the disk or the codec: nothing is
      read or decoded. */
  lemma UnknownTileNeverRead(volume: Path, contains: Path -> bool, tile: string,
                             files1: Path -> FileAccess, codec1: Codec, mask1: Option<string>,
                             files2: Path -> FileAccess, codec2: Codec, mask2: Option<string>)
    requires !contains(TileFile(volume, tile))
    ensures MaskLocal(volume, contains, files1, codec1, tile, mask1) == NotFoundText(FILE_NOT_FOUND)
    ensures MaskLocal(volume, contains, files1, codec1, tile, mask1) ==
            MaskLocal(volume, contains, files2, codec2, tile, mask2)
  {
  }

  /** Past the filter, the answer is `LocalAnswer` on the tile's file and
      the parsed mask. */
  lemma KnownTileAnswered(volume: Path, contains: Path -> bool, files: Path -> FileAccess,
                          codec: Codec, tile: string, mask: Option<string>)
    requires contains(TileFile(volume, tile))
    ensures MaskLocal(volume, contains, files, codec, tile, mask) ==
            LocalAnswer(files(TileFile(volume, tile)), Clean(mask), codec)
  {
  }

  /** With an empty mask a known tile is served byte for byte as stored, a
      read error keeps its kind, and the codec is never used. */
  lemma EmptyMaskPassesThrough(file: FileAccess, codec1: Codec, codec2: Codec)
    ensures file.Contents? ==> LocalAnswer(file, map[], codec1) == Png(file.bytes)
    ensures !file.Contents? ==> LocalAnswer(file, map[], codec1) == Failed(file.kind)
    ensures LocalAnswer(file, map[], codec1) == LocalAnswer(file, map[], codec2)
  {
  }

  /** With a non-empty mask a readable, decodable tile is served as the
      encoding of its recoloured raster; a failed encoding is `InvalidData`. */
  lemma NonEmptyMaskRecolors(file: FileAccess, m: Mask, codec: Codec, img: Raster)
    requires m != map[]
    requires file.Contents? && codec.decode(file.bytes) == Some(img)
    ensures var out := codec.encode(RecolorRaster(img, m));
            && (out.Some? ==> LocalAnswer(file, m, codec) == Png(out.value))
            && (out.None? ==> LocalAnswer(file, m, codec) == Failed(InvalidData))
  {
    assert ProcessLocal(file, m, codec) == MaskImage(img, m, codec);
  }

  /** With a non-empty mask a tile that cannot be opened keeps the open
      error's kind, and one that fails later, while reading or decoding,
      is `InvalidData`. */
  lemma NonEmptyMaskErrors(file: FileAccess, m: Mask, codec: Codec)
    requires m != map[]
    ensures file.OpenFails? ==> LocalAnswer(file, m, codec) == Failed(file.kind)
    ensures file.ReadFails? ==> LocalAnswer(file, m, codec) == Failed(InvalidData)
    ensures file.Contents? && codec.decode(file.bytes).None? ==>
              LocalAnswer(file, m, codec) == Failed(InvalidData)
  {
  }

  /** The remote handler has no short cut: even with an empty mask a served
      tile is the re-encoding of the decoded (first 10 MiB of the) body,
      not the body itself. */
  lemma RemoteAlwaysReencodes(response: Option<Body>, codec: Codec)
    requires RemoteAnswer(response, map[], codec).Png?
    ensures response.Some?
    ensures var capped := ReadCapped(response.value);
            && capped.Success? && |capped.value| <= MAX_REMOTE_FILE_SIZE
            && exists img :: codec.decode(capped.value) == Some(img) &&
                             codec.encode(img) == Some(RemoteAnswer(response, map[], codec).body)
  {
    var capped := ReadCapped(response.value).value;
    var img :| codec.decode(capped) == Some(img) &&
               codec.encode(RecolorRaster(img, map[])) == Some(RemoteAnswer(response, map[], codec).body);
    UnreachableMaskIsIdentity(img.pixels, map[]);
    assert RecolorRaster(img, map[]) == img;
  }

  /** Any failure of the remote request (unreachable origin, timeout, error
      status) is reported as `NotFound`. */
  lemma RemoteRequestFailureIsNotFound(base: Url, join: (Url, string) -> Option<Url>, fetch: Url -> Option<Body>,
                                       codec: Codec, tile: string, mask: Option<string>)
    requires join(base, tile + ".png").Some?
    requires fetch(join(base, tile + ".png").value).None?
    ensures MaskRemote(base, join, fetch, codec, tile, mask) == Failed(NotFound)
  {
  }

  /** The file name of a tile path is its last segment with `.png` added. */
  lemma TileFileName(tile: string)
    ensures var parts := Split(tile, '/');
            var file := Split(tile + ".png", '/');
            |file| == |parts| && file[|file| - 1] == parts[|parts| - 1] + ".png"
  {
    assert '/' !in ".png";
    SplitPadRight(tile, ".png", '/');
  }

  /** A non-empty relative path appended to a directory lies below it,
      and ends where the relative path ends. */
  lemma AppendBelow(dir: Path, rel: Path)
    requires |rel| > 0
    ensures var p := dir + rel;
            Below(dir, p) && p[|dir|..] == rel && p[|p| - 1] == rel[|rel| - 1]
  {
    var p := dir + rel;
    assert p[..|dir|] == dir;
    assert p[|dir|..] == rel;
  }

  /** A tile's file lies below the volume, at the tile's own relative path,
      and has the `png` extension when its last segment is not empty. */
  lemma TileFileShape(volume: Path, tile: string)
    ensures var p := TileFile(volume, tile);
            && Below(volume, p) && p[|volume|..] == Split(tile + ".png", '/')
            && (Split(tile, '/')[|Split(tile, '/')| - 1] != "" ==> IsPng(p))
  {
    var rel := Split(tile + ".png", '/');
    var last := Split(tile, '/')[|Split(tile, '/')| - 1];
    AppendBelow(volume, rel);
    TileFileName(tile);
    assert rel[|rel| - 1] == last + ".png";
    PngExtensionIff(last + ".png");
    if last != "" {
      assert (last + ".png")[|last + ".png"| - 4..] == ".png";
    }
  }

  /** End to end, with a filter that has no false negatives: a tile stored
      under the volume at start-up, whose last path segment is not empty, is
      never answered with the plain 404. */
  lemma StoredTileIsFound(volume: Path, disk: Node, svc: Service, contains: Path -> bool,
                          files: Path -> FileAccess, codec: Codec, tile: string, mask: Option<string>)
    requires Startup(None, Some(volume), disk) == Success(svc)
    requires forall p :: p in svc.snapshot ==> contains(p)
    requires LeafAt(disk, Split(tile + ".png", '/'))
    requires Split(tile, '/')[|Split(tile, '/')| - 1] != ""
    ensures !MaskLocal(volume, contains, files, codec, tile, mask).NotFoundText?
  {
    var p := TileFile(volume, tile);
    TileFileShape(volume, tile);
    BuildIndexExact(volume, disk, p);
    assert p in svc.snapshot;
  }

  /** End to end, with an exact filter: a tile that was not stored under
      the volume at start-up gets the plain 404, whatever the mask. */
  lemma MissingTileIsNotFound(volume: Path, disk: Node, svc: Service, contains: Path -> bool,
                              files: Path -> FileAccess, codec: Codec, tile: string, mask: Option<string>)
    requires Startup(None, Some(volume), disk) == Success(svc)
    requires forall p :: contains(p) <==> p in svc.snapshot
    requires !LeafAt(disk, Split(tile + ".png", '/'))
    ensures MaskLocal(volume, contains, files, codec, tile, mask) == NotFoundText(FILE_NOT_FOUND)
  {
    var p := TileFile(volume, tile);
    TileFileShape(volume, tile);
    BuildIndexExact(volume, disk, p);
    assert p !in svc.snapshot;
    UnknownTileNeverRead(volume, contains, tile, files, codec, mask, files, codec, mask);
  }
}

=== FILE: snapshot.dfy ===
/** The start-up snapshot of the volume (src/main.rs): `visit_dirs` walks
    the directory tree depth first, recursing into every entry that is a
    directory and handing every other entry to a callback; the callback
    inserts the entry's path into the existence filter when its extension
    is exactly `png`. The file system is a tree value here and the filter's
    contents are the exact set of inserted paths. */
module Snapshot {
  import opened Types

  /** A path as its sequence of components. */
  type Path = seq<string>

  /** What is found at a path. `Path::is_dir` is true for `Dir` and for
      `Unlistable` (a directory whose listing fails); `NonDir` is any other
      entry, `Absent` nothing at all (a dangling link is also `is_dir`
      false). */
  datatype Node =
    | Dir(entries: seq<DirEntry>)
    | Unlistable(kind: ErrorKind)
    | NonDir
    | Absent

  datatype DirEntry = DirEntry(name: string, node: Node)

  predicate IsDir(n: Node)
  {
    n.Dir? || n.Unlistable?
  }

  /** `visit_dirs(dir, cb)`: the paths handed to the callback, in order, or
      the first listing error. A root that is not a directory is not
      walked at all and yields no paths and no error. */
  function Walk(dir: Path, n: Node): Result<seq<Path>, ErrorKind>
    decreases n
  {
    match n
    case Dir(es) => WalkEntries(dir, es)
    case Unlistable(k) => Failure(k)
    case NonDir => Success([])
    case Absent => Success([])
  }

  /** The `for entry in fs::read_dir(dir)?` loop: recurse into directories,
      call back on everything else, stop at the first error. */
  function WalkEntries(dir: Path, es: seq<DirEntry>): Result<seq<Path>, ErrorKind>
    decreases es
  {
    if |es| == 0 then Success([])
    else
      var path := dir + [es[0].name];
      var here := if IsDir(es[0].node) then Walk(path, es[0].node) else Success([path]);
      match here
      case Failure(k) => Failure(k)
      case Success(vs) =>
        match WalkEntries(dir, es[1..])
        case Failure(k) => Failure(k)
        case Success(ws) => Success(vs + ws)
  }

  /** Position of the last `.` in `s`. */
  function LastDot(s: string): (r: Option<nat>)
    ensures r.Some? ==> r.value < |s| && s[r.value] == '.' &&
                        forall j :: r.value < j < |s| ==> s[j] != '.'
    ensures r.None? ==> forall j :: 0 <= j < |s| ==> s[j] != '.'
    decreases |s|
  {
    if |s| == 0 then None
    else if s[|s| - 1] == '.' then Some(|s| - 1)
    else LastDot(s[..|s| - 1])
  }

  /** `Path::extension` of a file name: the text after the last `.`, except
      that `..` and names whose only `.` is the first character (`.png`)
      have none. */
  function Extension(name: string): Option<string>
  {
    if name == ".." then None
    else match LastDot(name)
      case None => None
      case Some(i) => if i == 0 then None else Some(name[i + 1..])
  }

  /** The filter in the callback: the extension is exactly `png`. */
  predicate IsPng(p: Path)
  {
    |p| > 0 && Extension(p[|p| - 1]) == Some("png")
  }

  /** The start-up snapshot: every path the walk reports with a `png`
      extension, or the walk's error (which aborts start-up). */
  function BuildIndex(root: Path, n: Node): Result<set<Path>, ErrorKind>
  {
    match Walk(root, n)
    case Failure(k) => Failure(k)
    case Success(vs) => Success(set p | p in vs && IsPng(p))
  }

  // ---------------------------------------------------------------------
  // An independent description of the tree

  /** `rel` leads from `n` through directories to an entry that is not a
      directory. */
  ghost predicate LeafAt(n: Node, rel: Path)
    decreases n
  {
    n.Dir? && LeafIn(n.entries, rel)
  }

  ghost predicate LeafIn(es: seq<DirEntry>, rel: Path)
    decreases es
  {
    |rel| > 0 && exists i :: 0 <= i < |es| && EntryLeaf(es[i], rel)
  }

  ghost predicate EntryLeaf(e: DirEntry, rel: Path)
    requires |rel| > 0
    decreases e
  {
    && rel[0] == e.name
    && if IsDir(e.node) then LeafAt(e.node, rel[1..]) else |rel| == 1
  }

  /** A directory whose listing fails is reachable from `n`. */
  ghost predicate Blocked(n: Node)
    decreases n
  {
    n.Unlistable? || (n.Dir? && BlockedIn(n.entries))
  }

  ghost predicate BlockedIn(es: seq<DirEntry>)
    decreases es
  {
    exists i :: 0 <= i < |es| && Blocked(es[i].node)
  }

  /** `k` is the error of listing some directory reachable from `n`. */
  ghost predicate ReportsKind(n: Node, k: ErrorKind)
    decreases n
  {
    (n.Unlistable? && n.kind == k) || (n.Dir? && ReportsKindIn(n.entries, k))
  }

  ghost predicate ReportsKindIn(es: seq<DirEntry>, k: ErrorKind)
    decreases es
  {
    exists i :: 0 <= i < |es| && ReportsKind(es[i].node, k)
  }

  /** `p` lies strictly below `dir`. */
  predicate Below(dir: Path, p: Path)
  {
    |p| > |dir| && p[..|dir|] == dir
  }

  // ---------------------------------------------------------------------
  // The walk against the description

  lemma LeafInCons(es: seq<DirEntry>, rel: Path)
    requires |es| > 0
    ensures LeafIn(es, rel) <==> (|rel| > 0 && EntryLeaf(es[0], rel)) || LeafIn(es[1..], rel)
  {
    if LeafIn(es, rel) {
      var i :| 0 <= i < |es| && EntryLeaf(es[i], rel);
      if i > 0 {
        assert es[1..][i - 1] == es[i];
      }
    }
    if LeafIn(es[1..], rel) {
      var i :| 0 <= i < |es[1..]| && EntryLeaf(es[1..][i], rel);
      assert es[i + 1] == es[1..][i];
    }
  }

  lemma BlockedInCons(es: seq<DirEntry>)
    requires |es| > 0
    ensures BlockedIn(es) <==> Blocked(es[0].node) || BlockedIn(es[1..])
  {
    if BlockedIn(es) {
      var i :| 0 <= i < |es| && Blocked(es[i].node);
      if i > 0 {
        assert es[1..][i - 1] == es[i];
      }
    }
    if BlockedIn(es[1..]) {
      var i :| 0 <= i < |es[1..]| && Blocked(es[1..][i].node);
      assert es[i + 1] == es[1..][i];
    }
  }

  /** The walk fails exactly when some directory it reaches cannot be
      listed. */
  lemma {:induction false} WalkFailsIff(dir: Path, n: Node)
    ensures Walk(dir, n).Failure? <==> Blocked(n)
    decreases n
  {
    if n.Dir? {
      WalkEntriesFailsIff(dir, n.entries);
    }
  }

  lemma {:induction false} WalkEntriesFailsIff(dir: Path, es: seq<DirEntry>)
    ensures WalkEntries(dir, es).Failure? <==> BlockedIn(es)
    decreases es
  {
    if |es| > 0 {
      var path := dir + [es[0].name];
      if IsDir(es[0].node) {
        WalkFailsIff(path, es[0].node);
      }
      WalkEntriesFailsIff(dir, es[1..]);
      BlockedInCons(es);
    }
  }

  /** The walk's error is passed up unchanged: it is the listing error of
      some directory the walk reaches. */
  lemma {:induction false} WalkErrorReported(dir: Path, n: Node)
    requires Walk(dir, n).Failure?
    ensures ReportsKind(n, Walk(dir, n).error)
    decreases n
  {
    if n.Dir? {
      WalkEntriesErrorReported(dir, n.entries);
    }
  }

  lemma {:induction false} WalkEntriesErrorReported(dir: Path, es: seq<DirEntry>)
    requires WalkEntries(dir, es).Failure?
    ensures ReportsKindIn(es, WalkEntries(dir, es).error)
    decreases es
  {
    var k := WalkEntries(dir, es).error;
    var e := es[0];
    var path := dir + [e.name];
    if IsDir(e.node) && Walk(path, e.node).Failure? {
      WalkErrorReported(path, e.node);
      assert ReportsKind(es[0].node, k);
    } else {
      WalkEntriesErrorReported(dir, es[1..]);
      var j :| 0 <= j < |es[1..]| && ReportsKind(es[1..][j].node, k);
      assert es[j + 1] == es[1..][j];
    }
  }

  /** One step down: below `dir + [name]` means below `dir`, through `name`,
      and at least one more component. */
  lemma BelowChild(dir: Path, name: string, p: Path)
    ensures Below(dir + [name], p) <==>
              Below(dir, p) && p[|dir|] == name && |p| > |dir| + 1
  {
    var child := dir + [name];
    if Below(dir, p) && p[|dir|] == name && |p| > |dir| + 1 {
      assert p[..|child|] == p[..|dir|] + [p[|dir|]];
    }
    if Below(child, p) {
      assert p[..|dir|] == p[..|child|][..|dir|];
      assert p[|dir|] == p[..|child|][|dir|];
    }
  }

  /** What a directory entry of a listing contributes: the walk below it. */
  lemma VisitDirEntry(dir: Path, e: DirEntry, p: Path)
    requires IsDir(e.node) && Walk(dir + [e.name], e.node).Success?
    ensures p in Walk(dir + [e.name], e.node).value <==> Below(dir, p) && EntryLeaf(e, p[|dir|..])
    decreases e
  {
    var path := dir + [e.name];
    WalkVisits(path, e.node, p);
    BelowChild(dir, e.name, p);
    if Below(dir, p) {
      var rel := p[|dir|..];
      assert |path| == |dir| + 1 && |rel| >= 1;
      assert rel[0] == p[|dir|];
      assert rel[1..] == p[|path|..];
      assert EntryLeaf(e, rel) <==> rel[0] == e.name && LeafAt(e.node, rel[1..]);
      LeafAtNonEmpty(e.node, rel[1..]);
    }
  }

  lemma LeafAtNonEmpty(n: Node, rel: Path)
    ensures LeafAt(n, rel) ==> |rel| > 0
  {
    if LeafAt(n, rel) {
      assert LeafIn(n.entries, rel);
    }
  }

  /** What any other entry contributes: its own path. */
  lemma VisitFileEntry(dir: Path, e: DirEntry, p: Path)
    requires !IsDir(e.node)
    ensures p == dir + [e.name] <==> Below(dir, p) && EntryLeaf(e, p[|dir|..])
  {
    var path := dir + [e.name];
    if p == path {
      assert p[..|dir|] == dir;
      assert p[|dir|..] == [e.name];
    }
    if Below(dir, p) && EntryLeaf(e, p[|dir|..]) {
      assert p == p[..|dir|] + p[|dir|..];
      assert p[|dir|..] == [e.name];
    }
  }

  /** The walk reports exactly the non-directory entries below the
      starting directory: directories are entered, never reported. */
  lemma {:induction false} WalkVisits(dir: Path, n: Node, p: Path)
    requires Walk(dir, n).Success?
    ensures p in Walk(dir, n).value <==> Below(dir, p) && LeafAt(n, p[|dir|..])
    decreases n
  {
    if n.Dir? {
      WalkEntriesVisits(dir, n.entries, p);
    }
  }

  lemma {:induction false} WalkEntriesVisits(dir: Path, es: seq<DirEntry>, p: Path)
    requires WalkEntries(dir, es).Success?
    ensures p in WalkEntries(dir, es).value <==> Below(dir, p) && LeafIn(es, p[|dir|..])
    decreases es
  {
    if |es| > 0 {
      var e := es[0];
      var path := dir + [e.name];
      if IsDir(e.node) {
        VisitDirEntry(dir, e, p);
      } else {
        VisitFileEntry(dir, e, p);
      }
      WalkEntriesVisits(dir, es[1..], p);
      if Below(dir, p) {
        LeafInCons(es, p[|dir|..]);
      }
    }
  }

  /** The snapshot holds exactly the non-directory entries below the root
      whose extension is exactly `png`; it fails exactly when a directory
      below the root (or the root itself) cannot be listed. */
  lemma BuildIndexExact(root: Path, n: Node, p: Path)
    ensures BuildIndex(root, n).Failure? <==> Blocked(n)
    ensures BuildIndex(root, n).Success? ==>
              (p in BuildIndex(root, n).value <==> Below(root, p) && LeafAt(n, p[|root|..]) && IsPng(p))
  {
    WalkFailsIff(root, n);
    if Walk(root, n).Success? {
      WalkVisits(root, n, p);
    }
  }

  /** A root that is missing or not a directory gives an empty snapshot,
      not an error. */
  lemma RootNotDirectory(root: Path, n: Node)
    requires !IsDir(n)
    ensures BuildIndex(root, n) == Success({})
  {
    var none: seq<Path> := [];
    assert Walk(root, n) == Success(none);
    assert (set p | p in none && IsPng(p)) == {};
  }

  /** The extension is `png` exactly when the name is a non-empty stem
      followed by `.png`; the comparison is case-sensitive. */
  lemma PngExtensionIff(name: string)
    ensures Extension(name) == Some("png") <==> |name| > 4 && name[|name| - 4..] == ".png"
  {
    if |name| > 4 && name[|name| - 4..] == ".png" {
      var d := |name| - 4;
      assert name[d] == '.';
      assert name[d + 1..] == "png";
      var r := LastDot(name);
      assert r.Some?;
      assert r.value == d;
    }
    if Extension(name) == Some("png") {
      var i := LastDot(name).value;
      assert name[i + 1..] == "png";
      assert name[|name| - 4..] == [name[i]] + name[i + 1..];
    }
  }
}

=== FILE: text.dfy ===
/** The two `str` operations the mask parser is built from: `trim`, which
    strips Unicode white space from both ends, and `split(c)`, which cuts a
    string at every occurrence of one character and keeps the empty pieces. */
module Text {

  /** Rust's `char::is_whitespace`: the Unicode `White_Space` property. */
  predicate IsWhitespace(c: char)
  {
    var n := c as int;
    || (0x09 <= n <= 0x0D) || n == 0x20 || n == 0x85 || n == 0xA0
    || n == 0x1680 || (0x2000 <= n <= 0x200A) || n == 0x2028 || n == 0x2029
    || n == 0x202F || n == 0x205F || n == 0x3000
  }

  predicate AllWhitespace(s: string)
  {
    forall i :: 0 <= i < |s| ==> IsWhitespace(s[i])
  }

  /** How many white-space characters `s` starts with. */
  function LeadingWhitespace(s: string): (n: nat)
    ensures n <= |s|
    ensures forall i :: 0 <= i < n ==> IsWhitespace(s[i])
    ensures n < |s| ==> !IsWhitespace(s[n])
    decreases |s|
  {
    if |s| > 0 && IsWhitespace(s[0]) then 1 + LeadingWhitespace(s[1..]) else 0
  }

  /** How many white-space characters `s` ends with. */
  function TrailingWhitespace(s: string): (n: nat)
    ensures n <= |s|
    ensures forall i :: |s| - n <= i < |s| ==> IsWhitespace(s[i])
    ensures n < |s| ==> !IsWhitespace(s[|s| - n - 1])
    decreases |s|
  {
    if |s| > 0 && IsWhitespace(s[|s| - 1]) then 1 + TrailingWhitespace(s[..|s| - 1]) else 0
  }

  /** `str::trim_start`: drop the leading white space. */
  function TrimStart(s: string): string
  {
    s[LeadingWhitespace(s)..]
  }

  /** `str::trim_end`: drop the trailing white space. */
  function TrimEnd(s: string): string
  {
    s[..|s| - TrailingWhitespace(s)]
  }

  /** `str::trim`: strip the leading white space, then the trailing white
      space of what is left. */
  function Trim(s: string): string
  {
    TrimEnd(TrimStart(s))
  }

  /** Nothing `Trim` keeps starts or ends with white space, and everything
      it strips is white space. */
  lemma TrimStripsWhitespace(s: string)
    ensures var r := Trim(s);
            var lead := LeadingWhitespace(s);
            && lead + |r| <= |s|
            && r == s[lead..lead + |r|]
            && (forall i :: 0 <= i < lead ==> IsWhitespace(s[i]))
            && (forall i :: lead + |r| <= i < |s| ==> IsWhitespace(s[i]))
            && (r == [] || (!IsWhitespace(r[0]) && !IsWhitespace(r[|r| - 1])))
  {
    var t := TrimStart(s);
    var r := TrimEnd(t);
    WhitespaceBehind(s, t, |r|);
  }

  /** What a suffix `t` of `s` leaves behind its first `n` characters is
      what `s` leaves behind the same characters. */
  lemma WhitespaceBehind(s: string, t: string, n: nat)
    requires |t| <= |s| && t == s[|s| - |t|..] && n <= |t|
    requires forall i :: n <= i < |t| ==> IsWhitespace(t[i])
    ensures forall i :: |s| - |t| + n <= i < |s| ==> IsWhitespace(s[i])
  {
    var lead := |s| - |t|;
    forall i | lead + n <= i < |s|
      ensures IsWhitespace(s[i])
    {
      assert s[i] == t[i - lead];
    }
  }

  /** `s` is the white space `Trim` removes in front, the trimmed text, and
      the white space it removes behind. */
  lemma TrimDecompose(s: string) returns (w1: string, w2: string)
    ensures s == w1 + (Trim(s) + w2)
    ensures AllWhitespace(w1) && AllWhitespace(w2)
  {
    var lead := LeadingWhitespace(s);
    var t := TrimStart(s);
    var r := TrimEnd(t);
    w1, w2 := s[..lead], t[|r|..];
    Halves(s, lead);
    Halves(t, |r|);
    PrefixWhite(s, lead);
    SuffixWhite(t, TrailingWhitespace(t));
  }

  lemma Halves(s: string, k: nat)
    requires k <= |s|
    ensures s == s[..k] + s[k..]
  {
  }

  lemma PrefixWhite(s: string, n: nat)
    requires n <= |s| && forall i :: 0 <= i < n ==> IsWhitespace(s[i])
    ensures AllWhitespace(s[..n])
  {
  }

  lemma SuffixWhite(s: string, n: nat)
    requires n <= |s| && forall i :: |s| - n <= i < |s| ==> IsWhitespace(s[i])
    ensures AllWhitespace(s[|s| - n..])
  {
    var w := s[|s| - n..];
    forall i | 0 <= i < |w|
      ensures IsWhitespace(w[i])
    {
      assert w[i] == s[|s| - n + i];
    }
  }

  /** Leading white space is counted in full, and then the count goes on
      into what follows. */
  lemma {:induction false} LeadingPadded(w: string, p: string)
    requires AllWhitespace(w)
    ensures LeadingWhitespace(w + p) == |w| + LeadingWhitespace(p)
    decreases |w|
  {
    if |w| > 0 {
      assert (w + p)[1..] == w[1..] + p;
      LeadingPadded(w[1..], p);
    } else {
      assert w + p == p;
    }
  }

  /** Trailing white space is counted in full, and then the count goes on
      into what precedes it. */
  lemma {:induction false} TrailingPadded(p: string, w: string)
    requires AllWhitespace(w)
    ensures TrailingWhitespace(p + w) == |w| + TrailingWhitespace(p)
    decreases |w|
  {
    if |w| > 0 {
      assert (p + w)[..|p + w| - 1] == p + w[..|w| - 1];
      TrailingPadded(p, w[..|w| - 1]);
    } else {
      assert p + w == p;
    }
  }

  /** Once a non-blank character is reached, the count stops. */
  lemma {:induction false} LeadingAppend(p: string, q: string)
    requires !AllWhitespace(p)
    ensures LeadingWhitespace(p + q) == LeadingWhitespace(p)
    decreases |p|
  {
    if IsWhitespace(p[0]) {
      assert (p + q)[1..] == p[1..] + q;
      LeadingAppend(p[1..], q);
    }
  }

  /** A string of white space trims to nothing. */
  lemma TrimBlank(s: string)
    requires AllWhitespace(s)
    ensures Trim(s) == []
  {
    LeadingPadded(s, []);
    assert s + [] == s;
  }

  /** White space added in front of a string does not change its trim. */
  lemma TrimPadLeft(w: string, p: string)
    requires AllWhitespace(w)
    ensures Trim(w + p) == Trim(p)
  {
    LeadingPadded(w, p);
    DropPrefix(w, p, LeadingWhitespace(p));
    assert TrimStart(w + p) == TrimStart(p);
  }

  /** White space added behind a string does not change its trim. */
  lemma TrimPadRight(p: string, w: string)
    requires AllWhitespace(w)
    ensures Trim(p + w) == Trim(p)
  {
    if AllWhitespace(p) {
      assert AllWhitespace(p + w);
      TrimBlank(p + w);
      TrimBlank(p);
    } else {
      LeadingAppend(p, w);
      var t := TrimStart(p);
      SuffixOfAppend(p, w, LeadingWhitespace(p));
      assert TrimStart(p + w) == t + w;
      TrailingPadded(t, w);
      DropPaddedSuffix(t, w, TrailingWhitespace(t));
      assert TrimEnd(t + w) == TrimEnd(t);
    }
  }

  lemma DropPrefix(w: string, p: string, n: nat)
    requires n <= |p|
    ensures (w + p)[|w| + n..] == p[n..]
  {
  }

  lemma SuffixOfAppend(p: string, w: string, n: nat)
    requires n <= |p|
    ensures (p + w)[n..] == p[n..] + w
  {
  }

  lemma DropPaddedSuffix(t: string, w: string, k: nat)
    requires k <= |t|
    ensures (t + w)[..|t + w| - (|w| + k)] == t[..|t| - k]
  {
  }

  /** `str::split(sep)` collected into a vector: the pieces between the
      occurrences of `sep`, empty pieces included, so there is always one
      piece more than there are separators. */
  function Split(s: string, sep: char): (parts: seq<string>)
    ensures |parts| >= 1
    ensures forall i :: 0 <= i < |parts| ==> sep !in parts[i]
    decreases |s|
  {
    if |s| == 0 then [""]
    else
      var rest := Split(s[1..], sep);
      if s[0] == sep then [""] + rest
      else [[s[0]] + rest[0]] + rest[1..]
  }

  /** The inverse of `Split`: the pieces glued back with `sep` between them. */
  function Join(parts: seq<string>, sep: char): string
    requires |parts| >= 1
    decreases |parts|
  {
    if |parts| == 1 then parts[0] else parts[0] + [sep] + Join(parts[1..], sep)
  }

  /** Splitting loses nothing: joining the pieces gives back the string. */
  lemma {:induction false} JoinSplit(s: string, sep: char)
    ensures Join(Split(s, sep), sep) == s
    decreases |s|
  {
    if |s| > 0 {
      JoinSplit(s[1..], sep);
      var rest := Split(s[1..], sep);
      if s[0] != sep && |rest| > 1 {
        assert Split(s, sep)[1..] == rest[1..];
      }
    }
  }

  /** Pieces free of the separator are recovered by splitting their join. */
  lemma {:induction false} SplitJoin(parts: seq<string>, sep: char)
    requires |parts| >= 1
    requires forall i :: 0 <= i < |parts| ==> sep !in parts[i]
    ensures Split(Join(parts, sep), sep) == parts
    decreases |parts|
  {
    if |parts| == 1 {
      NoSeparator(parts[0], sep);
    } else {
      SplitJoin(parts[1..], sep);
      SplitAppend(parts[0], Join(parts[1..], sep), sep);
      NoSeparator(parts[0], sep);
      assert parts == [parts[0]] + parts[1..];
    }
  }

  /** A string without the separator is a single piece. */
  lemma {:induction false} NoSeparator(s: string, sep: char)
    requires sep !in s
    ensures Split(s, sep) == [s]
    decreases |s|
  {
    if |s| > 0 {
      assert sep !in s[1..] by {
        forall i | 0 <= i < |s[1..]| ensures s[1..][i] != sep {
          assert s[1..][i] == s[i + 1];
        }
      }
      NoSeparator(s[1..], sep);
      assert [s[0]] + s[1..] == s;
    }
  }

  /** Splitting distributes over a separator: the pieces of `x sep y` are
      the pieces of `x` followed by the pieces of `y`. */
  lemma {:induction false} SplitAppend(x: string, y: string, sep: char)
    ensures Split(x + [sep] + y, sep) == Split(x, sep) + Split(y, sep)
    decreases |x|
  {
    if |x| == 0 {
      assert x + [sep] + y == [sep] + y;
      assert ([sep] + y)[1..] == y;
    } else {
      assert (x + [sep] + y)[1..] == x[1..] + [sep] + y;
      SplitAppend(x[1..], y, sep);
    }
  }

  /** Separator-free text in front of a string only lengthens its first piece. */
  lemma {:induction false} SplitPadLeft(w: string, x: string, sep: char)
    requires sep !in w
    ensures Split(w + x, sep) == [w + Split(x, sep)[0]] + Split(x, sep)[1..]
    decreases |w|
  {
    if |w| == 0 {
      assert w + x == x;
      assert w + Split(x, sep)[0] == Split(x, sep)[0];
    } else {
      assert (w + x)[1..] == w[1..] + x;
      assert sep !in w[1..] by {
        forall i | 0 <= i < |w[1..]| ensures w[1..][i] != sep {
          assert w[1..][i] == w[i + 1];
        }
      }
      SplitPadLeft(w[1..], x, sep);
      assert [w[0]] + (w[1..] + Split(x, sep)[0]) == w + Split(x, sep)[0];
    }
  }

  /** One step of `Split`. */
  lemma SplitStep(s: string, sep: char)
    requires |s| > 0
    ensures var rest := Split(s[1..], sep);
            Split(s, sep) == if s[0] == sep then [""] + rest else [[s[0]] + rest[0]] + rest[1..]
  {
  }

  /** Lengthening the last piece commutes with adding a piece in front... */
  lemma PadLastAfterNewPiece(q: seq<string>, w: string)
    requires |q| >= 1
    ensures var p := [""] + q;
            p[..|p| - 1] + [p[|p| - 1] + w] == [""] + (q[..|q| - 1] + [q[|q| - 1] + w])
  {
  }

  /** ...and with growing the first piece by one character. */
  lemma PadLastAfterGrowFirst(c: char, q: seq<string>, w: string)
    requires |q| >= 1
    ensures var p := [[c] + q[0]] + q[1..];
            var qw := q[..|q| - 1] + [q[|q| - 1] + w];
            [[c] + qw[0]] + qw[1..] == p[..|p| - 1] + [p[|p| - 1] + w]
  {
    var p := [[c] + q[0]] + q[1..];
    var qw := q[..|q| - 1] + [q[|q| - 1] + w];
    if |q| == 1 {
      assert qw == [q[0] + w];
      assert [c] + (q[0] + w) == ([c] + q[0]) + w;
    } else {
      assert qw[0] == q[0];
      assert qw[1..] == q[1..|q| - 1] + [q[|q| - 1] + w];
      assert p[..|p| - 1] == [[c] + q[0]] + q[1..|q| - 1];
    }
  }

  /** Separator-free text behind a string only lengthens its last piece. */
  lemma {:induction false} SplitPadRight(x: string, w: string, sep: char)
    requires sep !in w
    ensures var p := Split(x, sep);
            Split(x + w, sep) == p[..|p| - 1] + [p[|p| - 1] + w]
    decreases |x|
  {
    if |x| == 0 {
      NoSeparator(w, sep);
      assert x + w == w;
    } else {
      var xw := x + w;
      assert xw[1..] == x[1..] + w && xw[0] == x[0];
      SplitPadRight(x[1..], w, sep);
      SplitStep(x, sep);
      SplitStep(xw, sep);
      var q := Split(x[1..], sep);
      if x[0] == sep {
        PadLastAfterNewPiece(q, w);
      } else {
        PadLastAfterGrowFirst(x[0], q, w);
      }
    }
  }
}

=== FILE: types.dfy ===
/** Primitive types shared by the whole model: Rust's fixed-width integers as
    subset newtypes, byte strings, the Option/Result wrappers standing in for
    Rust's `Option` and `Result`, and the `std::io::ErrorKind` values the
    service produces or propagates. */
module Types {

  /** Rust `u8`. */
  newtype u8 = x: int | 0 <= x < 0x100

  /** Rust `u32`. */
  newtype u32 = x: int | 0 <= x < 0x1_0000_0000

  const U32_MAX: int := 0xFFFF_FFFF

  /** A byte buffer (`Vec<u8>`). */
  type Bytes = seq<u8>

  datatype Option<+T> = None | Some(value: T)

  datatype Result<+T, +E> = Success(value: T) | Failure(error: E)

  /** The kinds of `std::io::Error` that matter here. `NotFound` and
      `InvalidData` are produced by the service itself; the others stand for
      whatever the operating system or the HTTP body stream reports. */
  datatype ErrorKind =
    | NotFound
    | PermissionDenied
    | InvalidData
    | UnexpectedEof
    | TimedOut
    | Other

  function Min(a: int, b: int): int
  {
    if a <= b then a else b
  }
}
